=== FILE: README.md ===
# usdt probe records and provider bindings, modelled in Dafny

This project models two parts of the `usdt` crates.

**The probe-record decoder** (`usdt-impl/src/record.rs`). A linker section holds
back-to-back records. Each record is laid out as:

- a 4-byte length prefix that covers the whole record;
- a version byte;
- an argument count;
- 16-bit flags;
- a 64-bit address;
- the provider name, the probe name and one description per argument, each as a NUL-terminated string.

`process_section` cuts the section into records by their length prefixes. `process_rec`
decodes each record and files it into a map from provider names to providers, and from
probe names to probes. It works as follows:

- A record of a newer format version is skipped.
- Names are cut to the dtrace.h limits.
- The first record for a provider/probe pair creates the entry. It fixes the entry's
  anchor address and the function name found for that address.
- Every record replaces the argument list.
- Every record appends its distance from the anchor, truncated to 32 bits, to the regular
  offset list or to the is-enabled offset list.

The model adds two things to the decoder:

- The record encoder (`RecordEncoding`), inferred from the decoder and the source's tests,
  so that round trips can be stated.
- An abstract model of how `extract_probe_records` chooses the bytes to decode
  (`Locator`).

**The binding generator** (`dtrace_provider` in `src/lib.rs`). It starts from an already
parsed provider definition and produces a unit struct named after the provider. The
struct has one function per probe:

- Parameter `argI` has the Rust type of the probe's I-th argument type:
  `uN`, `iN`, `String`, `f32` or `f64`.
- The function prints `"probe {}:{}"` followed by one `" {}"` per argument.

Modules:

| file | module | contents |
|---|---|---|
| results.dfy | `Results` | `Option` and `Result` |
| bytes.dfy | `Bytes` | little-endian integers and C strings, readers with their writers |
| record.dfy | `Record` | constants, data model, `limit_string_length`, `process_rec`, `process_section` |
| record_encoding.dfy | `RecordEncoding` | record encoder and decode-of-encode lemmas |
| record_properties.dfy | `RecordProperties` | framing, monotonicity and the source's test scenarios |
| locator.dfy | `Locator` | section choice of `extract_probe_records` over an abstract object file |
| bindings.dfy | `Bindings` | type mapping, parameter naming, format strings, generated functions |

The code behaves as follows in four edge cases:

- A record is skipped as soon as its version byte says it is newer. This happens even
  when the record is too short for the rest of the 16-byte header.
- In the ELF fallback, a corrupt name among the first two boundary symbols gives "no
  section". It does not make the file invalid.
- The Mach-O fallback uses the first two matching symbols, however many there are.
- An integer bit width is any decimal that parses into a `u8`. Widths 0 to 255 are
  accepted, and leading zeros disappear from the type name.

## Model

| member | source | states |
|---|---|---|
| Bytes.FromLittleEndian | usdt-impl/src/record.rs:135 | a native-endian (here little-endian) read of n bytes is below 256^n |
| Bytes.ToLittleEndian | usdt-impl/src/record.rs:274-285 | the writer the tests use produces n bytes that read back as the value written |
| Bytes.LittleEndianRoundTrip | usdt-impl/src/record.rs:135 | every n-byte string is the encoding of the value read from it, so reading loses nothing |
| Bytes.ReadLittleEndian | usdt-impl/src/record.rs:194-196 | a fixed-width read succeeds exactly when enough bytes remain; it splits the input into the value's encoding and the rest |
| Bytes.ReadLittleEndianOfEncoding | usdt-impl/src/record.rs:194-196 | reading an encoded integer gives the integer and exactly the bytes after it |
| Bytes.IndexOfNul | usdt-impl/src/record.rs:247-250 | the position found is the first NUL; none is found exactly when the bytes hold no NUL |
| Bytes.ReadCstr | usdt-impl/src/record.rs:246-255 | fails exactly when there is no NUL; otherwise gives the NUL-free bytes before the first NUL and leaves the input just after it |
| Bytes.IndexOfNulOfEncoding | usdt-impl/src/record.rs:247-250 | in a name written with its NUL terminator, the first NUL is the terminator, whatever follows |
| Bytes.ReadCstrOfEncoding | usdt-impl/src/record.rs:246-255 | reading a C string written as name + NUL gives the name back and the following bytes untouched |
| Record.LimitStringLength | usdt-impl/src/record.rs:174-178 | the result is a prefix of the input shorter than the limit, equal to the input when it already fits, and exactly limit-1 long otherwise |
| Record.LimitStringLengthIdempotent | usdt-impl/src/record.rs:174-178 | cutting a cut name again changes nothing |
| Record.HexDigits | usdt-impl/src/record.rs:209 | `{:#x}` writes at least one digit, and only lower-case hexadecimal digits; a single digit exactly for values below 16 |
| Record.HexDigitsRoundTrip | usdt-impl/src/record.rs:209 | the `{:#x}` digits read back as the address and have no leading zero |
| Record.UnresolvedName | usdt-impl/src/record.rs:209 | the placeholder name is "?0x" followed by lower-case hexadecimal digits, without a leading zero, whose value is the address |
| Record.FunctionName | usdt-impl/src/record.rs:207-210 | a resolved name is a prefix of the symbol, kept whole when shorter than 128 bytes and exactly 127 bytes otherwise; an unresolved one becomes the "?0x" placeholder |
| Record.HexDigitsLength | usdt-impl/src/record.rs:209 | a value below 16^k has at most k hex digits |
| Record.FunctionNameFits | usdt-impl/src/record.rs:207-210 | every function name a probe can get fits MAX_FUNC_NAME_LEN, the placeholder included |
| Record.ReadField | usdt-impl/src/record.rs:185-196 | reading a header field fails with a truncated-header error exactly when the bytes run out |
| Record.ReadName | usdt-impl/src/record.rs:197-198 | reading a name fails with an unterminated-string error exactly when no NUL remains |
| Record.ReadArguments | usdt-impl/src/record.rs:199-205 | reading n_args descriptions succeeds exactly when n_args NULs remain, so a missing NUL is an unterminated-string error; it gives n_args descriptions, each shorter than MAX_ARG_TYPE_LEN, and consumes exactly n_args NULs |
| Record.ParseRecord | usdt-impl/src/record.rs:181-205 | fewer than 4 bytes is an error; a version byte above 1 means skip; a supported record shorter than the 16-byte header is an error, never a skip; a parsed record's version, count, flags and address are the header bytes; what a well-formed record decodes to, padding included, is stated by ParseRecordPadded |
| Record.ParsedHeader | usdt-impl/src/record.rs:183-196 | the fields read after the version byte sit at offsets 5, 6-7 and 8-15 of the record |
| Record.ReadFixedFields | usdt-impl/src/record.rs:194-196 | n_args, flags and address are the next 1, 2 and 8 bytes, and too few bytes is a truncated header |
| Record.ParseFields | usdt-impl/src/record.rs:194-205 | the decoded record carries the header values, NUL-free names and short argument descriptions |
| Record.Offset | usdt-impl/src/record.rs:233-237 | the offset equals address minus anchor when that fits 32 bits, and is that difference modulo 2^32 in every case |
| Record.ApplyRecord | usdt-impl/src/record.rs:207-238 | find-or-create under the cut keys: an address below an existing anchor is the only error; a new probe is named after its key and gets the resolved function name and the record's address as anchor; an existing probe keeps name, function and anchor; the arguments are replaced; flags 0 appends to the offsets and any other flag appends to the is-enabled offsets; every other entry is unchanged |
| Record.ApplyRecordWellFormed | usdt-impl/src/record.rs:212-227 | filing a record keeps every entry named after its key and every name within its dtrace.h limit |
| Record.ProcessRec | usdt-impl/src/record.rs:181-239 | a newer-version record leaves the map unchanged; fewer than 4 bytes is an error; success keeps every provider and keeps the map well formed |
| Record.ProcessRecords | usdt-impl/src/record.rs:128-139 | a tail of 1-3 bytes, a length beyond the remaining bytes and a length below 4 are errors; success keeps every provider and keeps the map well formed |
| Record.ProcessSection | usdt-impl/src/record.rs:125-145 | success always carries a section, never None, and its map is well formed; an empty slice gives an empty section; 1-3 bytes is an error |
| RecordEncoding.EncodeRecord | usdt-impl/src/record.rs:271-285 | the length prefix the tests write holds the record's total length, and the version sits at byte 4 |
| RecordEncoding.LimitAll | usdt-impl/src/record.rs:199-205 | each argument description is cut to MAX_ARG_TYPE_LEN, in order |
| RecordEncoding.LimitAllShort | usdt-impl/src/record.rs:199-205 | descriptions that fit are stored unchanged |
| RecordEncoding.ReadArgumentsOfEncoding | usdt-impl/src/record.rs:199-205 | reading back n encoded descriptions gives them cut to their limit, and exactly the bytes after them |
| RecordEncoding.ParseNamesOfEncoding | usdt-impl/src/record.rs:197-205 | the provider, probe and argument strings of an encoded record read back in order, and whatever bytes follow them are left unread |
| RecordEncoding.EncodeRecordSplits | usdt-impl/src/record.rs:183-196 | after the 4-byte length and the version byte, an encoded record holds exactly the count, flags, address and names that the field parser reads |
| RecordEncoding.FixedFieldsOfEncoding | usdt-impl/src/record.rs:194-196 | the count byte, 2-byte flags and 8-byte address written in front of the names read back unchanged and leave exactly the names |
| RecordEncoding.ParseFieldsOfEncoding | usdt-impl/src/record.rs:194-205 | the fields after the version byte of an encoded record decode to that record with descriptions cut, whatever bytes follow the last description |
| RecordEncoding.ParseRecordPadded | usdt-impl/src/record.rs:181-205 | the length bytes are never read and the record's bytes need not be used up: a supported record with any four leading bytes and any bytes after its last description decodes to the record with descriptions cut |
| RecordEncoding.ParseRecordOfEncoding | usdt-impl/src/record.rs:181-205 | decoding an encoded record of version at most 1 gives the record back with descriptions cut; a newer one is skipped |
| RecordEncoding.ParseRecordRoundTrip | usdt-impl/src/record.rs:181-205 | with descriptions that fit, decode after encode is the identity |
| RecordProperties.ProcessRecordsFramed | usdt-impl/src/record.rs:128-139 | a section of records each framed by its length prefix is decoded by applying process_rec to each record in order, stopping at the first error |
| RecordProperties.SkippedRecordIsTransparent | usdt-impl/src/record.rs:187-192 | a newer-version record in front of a section changes nothing about how the rest decodes |
| RecordProperties.ExtendsTransitive | usdt-impl/src/record.rs:128-139 | growth of the probe map composes: if one step and the next only extend the map, so do both together |
| RecordProperties.ApplyRecordExtends | usdt-impl/src/record.rs:213-237 | filing a record never removes a probe, never changes its name, function or anchor, and only appends to its offset lists |
| RecordProperties.ProcessRecExtends | usdt-impl/src/record.rs:181-239 | the same holds for one record slice |
| RecordProperties.ProcessRecordsExtends | usdt-impl/src/record.rs:128-139 | the same holds for a whole section: later records never change a probe's name, function or anchor |
| RecordProperties.ProcessRecOfEncoding | usdt-impl/src/record.rs:181-239 | process_rec on an encoded supported record files that record |
| RecordProperties.ProcessRecPadded | usdt-impl/src/record.rs:181-239 | process_rec files a supported record the same way whatever its four length bytes hold and whatever extra bytes follow its last description |
| RecordProperties.FirstRecordApplied | usdt-impl/src/record.rs:213-237 | one record filed into an empty map creates exactly its provider and probe, anchored at its address with offset 0 in the list its flags select |
| RecordProperties.SectionOfOne | usdt-impl/src/record.rs:125-145 | a section of one encoded record decodes as that record filed into an empty map |
| RecordProperties.SingleRecordSection | usdt-impl/src/record.rs:269-299 | the single-record test: names that fit are keys unchanged, and the probe has the encoded name, address and arguments |
| RecordProperties.ProcessRecordsFront | usdt-impl/src/record.rs:128-139 | a record framed by its own length prefix is processed first and the section continues right after it; an error in it ends the section |
| RecordProperties.ProcessRecordsOfTwo | usdt-impl/src/record.rs:128-139 | two framed records in a row are processed in order, the second on the map the first produced |
| RecordProperties.SectionOfTwo | usdt-impl/src/record.rs:125-145 | a section of two encoded records decodes as the second filed into the map the first made |
| RecordProperties.TwoRegularApplied | usdt-impl/src/record.rs:229-237 | two regular records for one probe give offsets [0, distance], or an error when the second address is below the first |
| RecordProperties.TwoRecordsShareAnchor | usdt-impl/src/record.rs:338-380 | the section test: records at 0x1234 then 0x12ab give anchor 0x1234 and offsets [0, 0x77] |
| RecordProperties.AddressBelowAnchorFails | usdt-impl/src/record.rs:229-231 | records at 0x12ab then 0x1234 for one probe make the section an error |
| RecordProperties.NewerVersionDoesNotAbortSection | usdt-impl/src/record.rs:187-192 | a newer-version record before a supported one does not change the decoded section |
| RecordProperties.LongNameKey | usdt-impl/src/record.rs:174-178 | a name at least as long as the limit is cut to its first limit-1 bytes, which differ from the name |
| RecordProperties.LongNamesAreCut | usdt-impl/src/record.rs:212-226 | an over-long provider or probe name is filed under its first 63 bytes, and the long name is not a key |
| RecordProperties.OneHundredThirtyPs | usdt-impl/src/record.rs:301-336 | the long-name test: 130-byte names give a 63-byte key, and the 130-byte key is absent |
| Locator.NonMisses | usdt-impl/src/record.rs:62-78 | the filter yields only hits and errors, drawn from the input, and all of them; it yields nothing exactly when every entry is passed over |
| Locator.FirstNonMiss | usdt-impl/src/record.rs:35-53 | the first item a filter yields is the first entry not passed over |
| Locator.SecondNonMiss | usdt-impl/src/record.rs:80 | the second `bounds.next()` yields the next entry after the first that is not passed over |
| Locator.NonMissesAppend | usdt-impl/src/record.rs:62-78 | filtering a list made of two parts yields the first part's items, then the second part's, each in their own order |
| Locator.NonMissesOne | usdt-impl/src/record.rs:62-78 | a single entry yields itself unless the filter passes it over |
| Locator.Contains | usdt-impl/src/record.rs:102 | `str::contains`: a name never contains a longer needle, and one of the same length only when equal; with ContainsAt and ContainsPosition, true exactly when the needle occurs at some position |
| Locator.ContainsAt | usdt-impl/src/record.rs:102 | a name that has "__dtrace_probes" at some position contains it |
| Locator.ContainsPosition | usdt-impl/src/record.rs:102 | a name that contains "__dtrace_probes" has it at some position |
| Locator.Slice | usdt-impl/src/record.rs:55-58 | a range slice succeeds exactly when start <= end <= file length; it is the bytes between the bounds; anything else is a bounds error |
| Locator.DecodeSection | usdt-impl/src/record.rs:93 | a decode of the chosen bytes either gives a well-formed section or carries process_section's own error |
| Locator.DecodeRange | usdt-impl/src/record.rs:80-82 | an out-of-range pair of bounds is a bounds error (the slice panic); otherwise the bytes between them are decoded; the Mach-O fallback at lines 111-112 does the same |
| Locator.ExtractElf | usdt-impl/src/record.rs:31-85 | ELF gives no section exactly when no header is named set_dtrace_probes and the first two boundary symbols are not both readable; it gives an invalid-file error exactly when a corrupt header name comes first |
| Locator.ExtractMach | usdt-impl/src/record.rs:86-117 | Mach-O gives no section exactly when no section name starts with __dtrace_probes and fewer than two symbols mention it; it is never an invalid-file error: the only failures are out-of-range bounds and decode errors |
| Locator.ExtractProbeRecords | usdt-impl/src/record.rs:28-122 | any other kind of file is invalid; Ok(None) happens only for a valid file without records; a section found is well formed |
| Locator.ElfNamedSectionWins | usdt-impl/src/record.rs:35-58 | the first header named set_dtrace_probes, with no corrupt name before it, is decoded whatever the symbols say |
| Locator.ElfCorruptHeaderName | usdt-impl/src/record.rs:39-56 | a corrupt header name met before that section makes the file invalid |
| Locator.ElfSectionHit | usdt-impl/src/record.rs:38-53 | a header with a corrupt name is an error, one named set_dtrace_probes is kept, and every other header, unnamed ones included, is passed over |
| Locator.ElfSymbolHit | usdt-impl/src/record.rs:62-79 | a symbol with a corrupt name is an error, one named __start_set_dtrace_probes or __stop_set_dtrace_probes is kept, and every other symbol is passed over |
| Locator.ElfBoundsFound | usdt-impl/src/record.rs:80 | both of the first two kept symbols read cleanly, which needs at least two symbols |
| Locator.ElfBoundsAt | usdt-impl/src/record.rs:80 | two boundary symbols with only passed-over symbols before the second one are the start and stop, in table order |
| Locator.MachSectionHit | usdt-impl/src/record.rs:90-96 | never an error; a parsed section whose name starts with __dtrace_probes is kept with its data, and every other section is passed over |
| Locator.MachSymbolHit | usdt-impl/src/record.rs:100-110 | never an error; a parsed symbol whose name contains __dtrace_probes is kept with its value, and every other symbol is passed over |
| Locator.MachBoundsFound | usdt-impl/src/record.rs:111 | two symbols mentioning __dtrace_probes were found, which needs a symbol table of at least two symbols |
| Locator.MachBoundsAt | usdt-impl/src/record.rs:111 | two symbols mentioning __dtrace_probes with no other such symbol before the second one give start and stop, in table order |
| Locator.NoRecordSectionHits | usdt-impl/src/record.rs:35-53 | when no header name is corrupt or set_dtrace_probes, the header search yields nothing |
| Locator.ElfSymbolHitsAreBoundaries | usdt-impl/src/record.rs:62-79 | every symbol the ELF fallback keeps is named __start_set_dtrace_probes or __stop_set_dtrace_probes |
| Locator.StrippedElfUsesBoundarySymbols | usdt-impl/src/record.rs:59-81 | for any symbol table, when no header is set_dtrace_probes or corrupt and the first two kept symbols are readable, both are boundary symbols and the bytes between their values are decoded |
| Locator.StrippedElfWithoutBounds | usdt-impl/src/record.rs:80-84 | for any symbol table, when no header is found and the first two kept symbols are not both readable, the file has no section |
| Locator.StrippedElfCorruptSymbolName | usdt-impl/src/record.rs:62-84 | for any symbol table, a corrupt symbol name met before any boundary symbol gives no section, not an error |
| Locator.MachNamedSectionWins | usdt-impl/src/record.rs:88-95 | the first Mach-O section whose name starts with __dtrace_probes is decoded, passing over unreadable sections and other names |
| Bindings.Decimal | src/lib.rs:123-131 | `{}` of a number is its decimal digits, reading back as the number, with no leading zero |
| Bindings.ParseU8 | src/lib.rs:126-130 | parse::<u8> accepts an optional '+' then digits worth less than 256, and nothing else; the value is that of the digits after the sign |
| Bindings.ParseU8Plus | src/lib.rs:126-127 | "+12" parses as 12, while a bare "+" and a doubled sign do not parse |
| Bindings.ParseU8OfDecimal | src/lib.rs:126-127 | the decimal of a width parses back to that width exactly when it is below 256 |
| Bindings.RustType | src/lib.rs:124-135 | unsigned width N maps to uN, signed to iN, string to String, float to f32, double to f64; a width that does not parse into u8 is an error |
| Bindings.RustTypeInjective | src/lib.rs:124-135 | two argument types map to the same Rust type exactly when they have the same kind and parsed width |
| Bindings.RustTypeU8 | src/lib.rs:125-128 | uint8_t maps to u8 |
| Bindings.RustTypeI64 | src/lib.rs:129-132 | int64_t maps to i64 |
| Bindings.RustTypeLeadingZeros | src/lib.rs:126-127 | uint008_t also maps to u8 |
| Bindings.RustTypeOddWidth | src/lib.rs:126-127 | uint17_t is accepted as u17: widths are not checked against 8, 16, 32 and 64 |
| Bindings.RustTypeWidthTooLarge | src/lib.rs:126 | uint256_t is rejected with a bit-width error naming "256" |
| Bindings.ArgNamesDistinct | src/lib.rs:120-123 | two parameters have the same name exactly when they have the same position |
| Bindings.ArgName | src/lib.rs:123 | every parameter name is "arg" followed by at least one more character |
| Bindings.ArgNameNumber | src/lib.rs:123 | the characters after "arg" in the i-th parameter's name are decimal digits whose value is i |
| Bindings.Params | src/lib.rs:111-152 | one parameter per argument type, in order, the i-th named arg{i} with the mapped type; an empty list gives none; any unmappable type fails the list |
| Bindings.Placeholders | src/lib.rs:154 | one " {}" per argument: 3n characters, each 3-character chunk " {}" |
| Bindings.PrintFormat | src/lib.rs:154-155 | the format is "probe {}:{}" followed by one " {}" per argument, 11 + 3n characters in all |
| Bindings.CountPlaceholdersAfter | src/lib.rs:154-155 | text without '{' adds no placeholder |
| Bindings.CountPlaceholdersRepeated | src/lib.rs:154 | n copies of " {}" hold n placeholders |
| Bindings.CountPlaceholdersBrace | src/lib.rs:155 | a leading "{}" is one placeholder |
| Bindings.PrintFormatPlaceholders | src/lib.rs:154-155 | the format of a probe with n arguments has 2 + n placeholders |
| Bindings.GenerateProbe | src/lib.rs:98-164 | it succeeds exactly when every argument type maps; the function is named after the probe, has the mapped parameters in order, prints the format "probe {}:{}" plus one " {}" per argument, and fills its 2 + n placeholders with provider, probe and the n parameters |
| Bindings.GenerableCons | src/lib.rs:88-164 | a non-empty list of probes can be generated exactly when its first probe's types all map and the rest of the list can be generated |
| Bindings.ProbesOf | src/lib.rs:88-89 | no more probes than pairs, and none when every pair is something other than a PROBE |
| Bindings.ProbesOfAppend | src/lib.rs:88-89 | the probes of two runs of pairs are those of the first run followed by those of the second, so probes keep their declaration order |
| Bindings.ProbesOfOne | src/lib.rs:88-89 | a PROBE pair gives exactly its own probe, any other pair gives none |
| Bindings.ProbesOfPairs | src/lib.rs:88-89 | the probes taken from a provider are exactly its PROBE pairs: each comes from one, and each PROBE pair's probe is among them |
| Bindings.GenerateProbes | src/lib.rs:98-164 | a list of probes gives one function per probe, the k-th being what GenerateProbe makes of the k-th probe; it fails exactly when some argument type does not map |
| Bindings.GenerateFunctions | src/lib.rs:88-165 | one function per PROBE pair in declaration order, nothing for other pairs; fails exactly when some argument type does not map |
| Bindings.GenerateProvider | src/lib.rs:87-180 | generation fails exactly when some probe's argument types do not all map; otherwise the struct is named after the provider, its impl has one function per probe, in order, and the k-th function is exactly what GenerateProbe makes of the k-th probe |

## Left out

- Reading the object file and parsing it with goblin are not modelled. `Locator.ExtractProbeRecords`
  starts from an abstract view of the parsed file: section names and offsets, symbol names and values.
- `addr_to_info` calls `dladdr` through FFI. It is replaced by a resolver parameter from address
  to optional function name. Its lossy UTF-8 conversion and its file-name half are not modelled.
- Names are byte strings. `read_cstr`'s UTF-8 check (`from_utf8(..).unwrap()`) and the
  char-boundary panic of `limit_string_length` on a multi-byte character are not modelled.
- Native endianness is fixed to little-endian.
- Panics become error values. A missing length prefix, a length past the end, a short record, a
  missing NUL, an address below the anchor and out-of-range slices are `DecodeError` or
  `ExtractError` variants.
- Record.ProcessRecords: the read of `len` as `usize` is the 32-bit value itself. A `len` that
  does not fit the platform's `usize` cannot occur on the 64-bit targets the crate supports.
- The `Section` fields other than `providers` keep their defaults in the source and are not modelled.
- In `src/lib.rs`, the following are not modelled:
  - the pest grammar, and the check that a probe starts with `probe` and `(`;
  - the `syn`/`quote` token streams and `format_ident!`;
  - reading the `.d` file;
  - the `unreachable!` arm for unexpected argument rules.

  The model starts from a parsed `ProviderDef`. There, each argument entry contributes one
  argument type, and other pairs inside the provider are `OtherPair`.
- Bindings.GenerateProbe: the generated `println!` wraps the format in `stringify!`, which
  prints the format literal with its quotes. The model records the format string and its
  arguments, not the printed text.
- The runtime output of the generated functions, and of the test helpers' `println!`, is not modelled.

=== FILE: bindings.dfy ===
/** The binding generator of src/lib.rs (`dtrace_provider`), from an already parsed
    provider definition to the signatures it emits: one unit struct named after the
    provider, and in its impl one function per probe, in declaration order, whose
    parameters `arg0`, `arg1`, ... carry the Rust types of the probe's argument types and
    whose body prints "probe {}:{}" followed by one " {}" per argument. */
module Bindings {
  import opened Results

  /** A probe argument type as the grammar matched it; an integer type keeps the digit
      string between `uint`/`int` and `_t`. */
  datatype ArgType =
    | UnsignedInt(digits: string)
    | SignedInt(digits: string)
    | StringArg
    | FloatArg
    | DoubleArg

  datatype ProbeDef = ProbeDef(name: string, arguments: seq<ArgType>)

  /** The pairs inside a provider after its name: probe rules, and the other tokens of the
      rule (braces, semicolons), which produce nothing. */
  datatype Pair = ProbePair(probe: ProbeDef) | OtherPair

  datatype ProviderDef = ProviderDef(name: string, pairs: seq<Pair>)

  datatype Param = Param(name: string, typ: string)

  /** One generated function: its name, its parameters, and the `println!` it makes:
      the format string and the values that fill it. */
  datatype ProbeFn = ProbeFn(name: string, params: seq<Param>, format: string, formatArgs: seq<string>)

  /** The unit struct named after the provider and the functions of its impl block. */
  datatype ProviderImpl = ProviderImpl(name: string, functions: seq<ProbeFn>)

  /** The digit string of an integer type does not parse into a `u8`; the source panics
      (`unwrap`) there. */
  datatype GenError = BitWidthNotU8(digits: string)

  predicate IsDigit(c: char) {
    '0' <= c <= '9'
  }

  predicate AllDigits(s: string) {
    forall i :: 0 <= i < |s| ==> IsDigit(s[i])
  }

  /** The value of a decimal digit string. */
  function DigitsValue(s: string): nat
    requires AllDigits(s)
  {
    if |s| == 0 then 0 else 10 * DigitsValue(s[..|s| - 1]) + (s[|s| - 1] - '0') as nat
  }

  /** Decimal rendering of n without leading zeros ("0" for zero), as `format!("{}", n)`. */
  function Decimal(n: nat): (s: string)
    ensures |s| >= 1 && AllDigits(s)
    ensures DigitsValue(s) == n
    ensures n > 0 ==> s[0] != '0'
  {
    if n < 10 then ['0' + n as char]
    else
      var s := Decimal(n / 10) + ['0' + (n % 10) as char];
      assert s[..|s| - 1] == Decimal(n / 10);
      s
  }

  /** Rust's `str::parse::<u8>()`: an optional '+' then at least one decimal digit, with a
      value below 256; leading zeros are allowed. */
  function ParseU8(s: string): (r: Option<nat>)
    ensures r.Some? ==> r.value < 0x100
    ensures r.Some? <==>
              var digits := if |s| > 0 && s[0] == '+' then s[1..] else s;
              |digits| > 0 && AllDigits(digits) && DigitsValue(digits) < 0x100
    ensures r.Some? ==> r.value == DigitsValue(if |s| > 0 && s[0] == '+' then s[1..] else s)
  {
    var digits := if |s| > 0 && s[0] == '+' then s[1..] else s;
    if |digits| == 0 || !AllDigits(digits) then None
    else if DigitsValue(digits) >= 0x100 then None
    else Some(DigitsValue(digits))
  }

  /** A leading '+' is accepted and does not change the value. */
  lemma ParseU8Plus()
    ensures ParseU8("+12") == Some(12)
    ensures ParseU8("+") == None && ParseU8("++1") == None
  {
    assert "+12"[1..] == "12" && "12"[..1] == "1" && "1"[..0] == "";
    assert DigitsValue("12") == 12;
    assert "++1"[1..] == "+1";
  }

  /** A width written in decimal parses back to itself exactly when it fits a `u8`. */
  lemma ParseU8OfDecimal(n: nat)
    ensures ParseU8(Decimal(n)) == if n < 0x100 then Some(n) else None
  {
  }

  /** The Rust type a probe argument type maps to: `uN`, `iN`, `String`, `f32`, `f64`. The
      width is whatever fits a `u8`; it is not checked against 8, 16, 32 and 64. */
  function RustType(t: ArgType): (r: Result<string, GenError>)
    ensures (t.UnsignedInt? || t.SignedInt?) ==>
              (r.Success? <==> ParseU8(t.digits).Some?)
    ensures t.UnsignedInt? && r.Success? ==>
              |r.value| >= 2 && r.value[0] == 'u' && r.value[1..] == Decimal(ParseU8(t.digits).value)
    ensures t.SignedInt? && r.Success? ==>
              |r.value| >= 2 && r.value[0] == 'i' && r.value[1..] == Decimal(ParseU8(t.digits).value)
    ensures t.StringArg? ==> r == Success("String")
    ensures t.FloatArg? ==> r == Success("f32")
    ensures t.DoubleArg? ==> r == Success("f64")
    ensures r.Failure? ==> r.error == BitWidthNotU8(t.digits)
  {
    match t
    case UnsignedInt(digits) =>
      (match ParseU8(digits)
       case None => Failure(BitWidthNotU8(digits))
       case Some(width) => Success("u" + Decimal(width)))
    case SignedInt(digits) =>
      (match ParseU8(digits)
       case None => Failure(BitWidthNotU8(digits))
       case Some(width) => Success("i" + Decimal(width)))
    case StringArg => Success("String")
    case FloatArg => Success("f32")
    case DoubleArg => Success("f64")
  }

  /** The kind of an argument type, without its spelling. */
  datatype Kind = UnsignedKind | SignedKind | StringKind | FloatKind | DoubleKind

  /** The kind and parsed width of an argument type: what its Rust type depends on.
      Kinds without a width carry 0. */
  function Meaning(t: ArgType): (Kind, nat)
  {
    match t
    case UnsignedInt(d) => (UnsignedKind, match ParseU8(d) case Some(w) => w case None => 0)
    case SignedInt(d) => (SignedKind, match ParseU8(d) case Some(w) => w case None => 0)
    case StringArg => (StringKind, 0)
    case FloatArg => (FloatKind, 0)
    case DoubleArg => (DoubleKind, 0)
  }

  /** Different argument types never map to the same Rust type: the mapping keeps the
      kind and the width, and nothing else. */
  lemma RustTypeInjective(a: ArgType, b: ArgType)
    requires RustType(a).Success? && RustType(b).Success?
    ensures RustType(a) == RustType(b) <==> Meaning(a) == Meaning(b)
  {
    var ra, rb := RustType(a).value, RustType(b).value;
    if ra == rb && (a.UnsignedInt? || a.SignedInt?) && (b.UnsignedInt? || b.SignedInt?) {
      assert ra[1..] == rb[1..];
      assert DigitsValue(ra[1..]) == DigitsValue(rb[1..]);
    }
  }

  /** `uint8_t` maps to `u8`. */
  lemma RustTypeU8()
    ensures RustType(UnsignedInt("8")) == Success("u8")
  {
    assert AllDigits("8") by { assert IsDigit("8"[0]); }
    assert DigitsValue("8") == 8 by { assert "8"[..0] == ""; }
    assert ParseU8("8") == Some(8);
    assert Decimal(8) == "8";
    assert "u" + "8" == "u8";
  }

  /** `int64_t` maps to `i64`. */
  lemma RustTypeI64()
    ensures RustType(SignedInt("64")) == Success("i64")
  {
    assert AllDigits("64") by { assert IsDigit("64"[0]) && IsDigit("64"[1]); }
    assert DigitsValue("64") == 64 by { assert "64"[..1] == "6"; assert "6"[..0] == ""; }
    assert ParseU8("64") == Some(64);
    assert Decimal(64) == "64" by { assert Decimal(6) == "6"; }
    assert "i" + "64" == "i64";
  }

  /** Leading zeros are dropped: `uint008_t` maps to `u8` as well. */
  lemma RustTypeLeadingZeros()
    ensures RustType(UnsignedInt("008")) == Success("u8")
  {
    assert AllDigits("008") by { assert IsDigit("008"[0]) && IsDigit("008"[1]) && IsDigit("008"[2]); }
    assert DigitsValue("008") == 8 by { assert "008"[..2] == "00"; assert "00"[..1] == "0"; assert "0"[..0] == ""; }
    assert ParseU8("008") == Some(8);
    RustTypeU8();
  }

  /** The width is not checked against the native integer widths: `uint17_t` gives `u17`. */
  lemma RustTypeOddWidth()
    ensures RustType(UnsignedInt("17")) == Success("u17")
  {
    assert AllDigits("17") by { assert IsDigit("17"[0]) && IsDigit("17"[1]); }
    assert DigitsValue("17") == 17 by { assert "17"[..1] == "1"; assert "1"[..0] == ""; }
    assert ParseU8("17") == Some(17);
    assert Decimal(17) == "17" by { assert Decimal(1) == "1"; }
    assert "u" + "17" == "u17";
  }

  /** A width that does not fit a `u8` cannot be generated: `uint256_t` fails. */
  lemma RustTypeWidthTooLarge()
    ensures RustType(UnsignedInt("256")) == Failure(BitWidthNotU8("256"))
  {
    assert AllDigits("256") by { assert IsDigit("256"[0]) && IsDigit("256"[1]) && IsDigit("256"[2]); }
    assert DigitsValue("256") == 256 by { assert "256"[..2] == "25"; assert "25"[..1] == "2"; assert "2"[..0] == ""; }
    assert ParseU8("256") == None;
  }

  /** The name of the i-th parameter. */
  function ArgName(i: nat): (r: string)
    ensures |r| > 3 && r[..3] == "arg"
  {
    "arg" + Decimal(i)
  }

  /** The digits after "arg" read back as the parameter's position. */
  lemma ArgNameNumber(i: nat)
    ensures AllDigits(ArgName(i)[3..]) && DigitsValue(ArgName(i)[3..]) == i
  {
    assert ArgName(i)[3..] == Decimal(i);
  }

  /** Parameters are named by position, so no two have the same name. */
  lemma ArgNamesDistinct(i: nat, j: nat)
    ensures ArgName(i) == ArgName(j) <==> i == j
  {
    if ArgName(i) == ArgName(j) {
      assert ArgName(i)[3..] == Decimal(i) && ArgName(j)[3..] == Decimal(j);
    }
  }

  /** Parameters for `args`, the first of them at position `first`; the first argument
      type that does not map fails the whole list. */
  function Params(args: seq<ArgType>, first: nat): (r: Result<seq<Param>, GenError>)
    ensures r.Success? <==> forall i :: 0 <= i < |args| ==> RustType(args[i]).Success?
    ensures r.Success? ==> |r.value| == |args|
    ensures r.Success? ==> forall i :: 0 <= i < |args| ==>
              r.value[i] == Param(ArgName(first + i), RustType(args[i]).value)
    decreases |args|
  {
    if |args| == 0 then Success([])
    else
      var typ :- RustType(args[0]);
      var rest :- Params(args[1..], first + 1);
      Success([Param(ArgName(first), typ)] + rest)
  }

  /** " {}" repeated n times. */
  function Placeholders(n: nat): (r: string)
    ensures |r| == 3 * n
    ensures forall i :: 0 <= i < n ==> r[3 * i..3 * i + 3] == " {}"
  {
    if n == 0 then ""
    else
      var rest := Placeholders(n - 1);
      var r := " {}" + rest;
      assert forall i :: 0 <= i < n ==> r[3 * i..3 * i + 3] == " {}" by {
        forall i | 0 <= i < n
          ensures r[3 * i..3 * i + 3] == " {}"
        {
          if i > 0 {
            assert r[3 * i..3 * i + 3] == rest[3 * (i - 1)..3 * (i - 1) + 3];
          }
        }
      }
      r
  }

  /** The `println!` format of a probe with n arguments. */
  function PrintFormat(n: nat): (r: string)
    ensures |r| == 11 + 3 * n && r[..11] == "probe {}:{}"
    ensures forall i :: 0 <= i < n ==> r[11 + 3 * i..14 + 3 * i] == " {}"
  {
    var p := Placeholders(n);
    var r := "probe {}:{}" + p;
    assert forall i :: 0 <= i < n ==> r[11 + 3 * i..14 + 3 * i] == p[3 * i..3 * i + 3];
    r
  }

  /** The number of `{}` placeholders in a format string. */
  function CountPlaceholders(s: string): nat {
    if |s| < 2 then 0
    else if s[0] == '{' && s[1] == '}' then 1 + CountPlaceholders(s[2..])
    else CountPlaceholders(s[1..])
  }

  lemma {:induction false} CountPlaceholdersAfter(prefix: string, s: string)
    requires forall i :: 0 <= i < |prefix| ==> prefix[i] != '{'
    ensures CountPlaceholders(prefix + s) == CountPlaceholders(s)
  {
    if |prefix| > 0 {
      assert (prefix + s)[1..] == prefix[1..] + s;
      CountPlaceholdersAfter(prefix[1..], s);
      if |prefix + s| < 2 {
        assert |s| == 0;
      }
    } else {
      assert prefix + s == s;
    }
  }

  /** A leading `{}` is one placeholder. */
  lemma CountPlaceholdersBrace(s: string)
    ensures CountPlaceholders("{}" + s) == 1 + CountPlaceholders(s)
  {
    assert ("{}" + s)[2..] == s;
  }

  lemma {:induction false} CountPlaceholdersRepeated(n: nat)
    ensures CountPlaceholders(Placeholders(n)) == n
  {
    if n > 0 {
      var rest := Placeholders(n - 1);
      assert Placeholders(n) == " " + ("{}" + rest);
      CountPlaceholdersAfter(" ", "{}" + rest);
      CountPlaceholdersBrace(rest);
      CountPlaceholdersRepeated(n - 1);
    }
  }

  /** The format of a probe with n arguments has 2 + n placeholders: provider, probe, and
      one per argument. */
  lemma PrintFormatPlaceholders(n: nat)
    ensures CountPlaceholders(PrintFormat(n)) == 2 + n
  {
    var p := Placeholders(n);
    var tail := ":" + ("{}" + p);
    assert PrintFormat(n) == "probe " + ("{}" + tail);
    CountPlaceholdersAfter("probe ", "{}" + tail);
    CountPlaceholdersBrace(tail);
    CountPlaceholdersAfter(":", "{}" + p);
    CountPlaceholdersBrace(p);
    CountPlaceholdersRepeated(n);
  }

  /** Every argument type of the probe maps to a Rust type. */
  ghost predicate Mappable(probe: ProbeDef) {
    forall i :: 0 <= i < |probe.arguments| ==> RustType(probe.arguments[i]).Success?
  }

  /** The function generated for one probe. */
  function GenerateProbe(provider: string, probe: ProbeDef): (r: Result<ProbeFn, GenError>)
    ensures r.Success? <==> Mappable(probe)
    ensures r.Success? ==>
              && r.value.name == probe.name
              && |r.value.params| == |probe.arguments|
              && (forall i :: 0 <= i < |probe.arguments| ==>
                    r.value.params[i] == Param(ArgName(i), RustType(probe.arguments[i]).value))
              && r.value.format == PrintFormat(|probe.arguments|)
              && |r.value.formatArgs| == 2 + |probe.arguments|
              && CountPlaceholders(r.value.format) == |r.value.formatArgs|
              && r.value.formatArgs[..2] == [provider, probe.name]
              && (forall i :: 0 <= i < |probe.arguments| ==> r.value.formatArgs[2 + i] == ArgName(i))
  {
    var params :- Params(probe.arguments, 0);
    var inputs := seq(|params|, i requires 0 <= i < |params| => params[i].name);
    PrintFormatPlaceholders(|params|);
    Success(ProbeFn(probe.name, params, PrintFormat(|params|), [provider, probe.name] + inputs))
  }

  /** The probe definitions among the pairs, in order. */
  function ProbesOf(pairs: seq<Pair>): (r: seq<ProbeDef>)
    ensures |r| <= |pairs|
    ensures (forall i :: 0 <= i < |pairs| ==> pairs[i].OtherPair?) ==> r == []
  {
    if |pairs| == 0 then []
    else if pairs[0].ProbePair? then [pairs[0].probe] + ProbesOf(pairs[1..])
    else ProbesOf(pairs[1..])
  }

  /** Taking the probes distributes over concatenation: the probes of a list of pairs
      come in the order of their pairs. */
  lemma {:induction false} ProbesOfAppend(x: seq<Pair>, y: seq<Pair>)
    ensures ProbesOf(x + y) == ProbesOf(x) + ProbesOf(y)
  {
    if |x| > 0 {
      assert (x + y)[1..] == x[1..] + y;
      ProbesOfAppend(x[1..], y);
    } else {
      assert x + y == y;
    }
  }

  /** A probe pair gives its one probe, any other pair gives none. */
  lemma ProbesOfOne(p: ProbeDef)
    ensures ProbesOf([ProbePair(p)]) == [p]
    ensures ProbesOf([OtherPair]) == []
  {
  }

  /** The probes taken are exactly those of the probe pairs. */
  lemma {:induction false} ProbesOfPairs(pairs: seq<Pair>)
    ensures forall k :: 0 <= k < |ProbesOf(pairs)| ==> ProbePair(ProbesOf(pairs)[k]) in pairs
    ensures forall i :: 0 <= i < |pairs| && pairs[i].ProbePair? ==> pairs[i].probe in ProbesOf(pairs)
  {
    if |pairs| > 0 {
      ProbesOfPairs(pairs[1..]);
      assert forall i :: 0 < i < |pairs| ==> pairs[i] == pairs[1..][i - 1];
    }
  }

  /** Every argument type of every probe maps to a Rust type. */
  ghost predicate Generable(probes: seq<ProbeDef>) {
    forall k :: 0 <= k < |probes| ==> Mappable(probes[k])
  }

  /** A non-empty list of probes can be generated exactly when its first probe's
      argument types map and the rest of the list can be generated. */
  lemma GenerableCons(probes: seq<ProbeDef>)
    requires |probes| > 0
    ensures Generable(probes) <==> Mappable(probes[0]) && Generable(probes[1..])
  {
    assert forall k :: 0 < k < |probes| ==> probes[k] == probes[1..][k - 1];
  }

  /** The functions for a list of probes, one per probe, in order. */
  function GenerateProbes(provider: string, probes: seq<ProbeDef>): (r: Result<seq<ProbeFn>, GenError>)
    ensures r.Success? <==> Generable(probes)
    ensures r.Success? ==> |r.value| == |probes|
    ensures r.Success? ==> forall k :: 0 <= k < |r.value| ==>
              GenerateProbe(provider, probes[k]) == Success(r.value[k])
  {
    if |probes| == 0 then Success([])
    else
      var later := probes[1..];
      GenerableCons(probes);
      var f :- GenerateProbe(provider, probes[0]);
      var rest :- GenerateProbes(provider, later);
      assert forall k :: 0 < k < |probes| ==> probes[k] == later[k - 1];
      Success([f] + rest)
  }

  /** The functions for the pairs: one per probe rule, in order; other pairs add none. */
  function GenerateFunctions(provider: string, pairs: seq<Pair>): (r: Result<seq<ProbeFn>, GenError>)
    ensures r.Success? <==> Generable(ProbesOf(pairs))
    ensures r.Success? ==> |r.value| == |ProbesOf(pairs)|
    ensures r.Success? ==> forall k :: 0 <= k < |r.value| ==>
              GenerateProbe(provider, ProbesOf(pairs)[k]) == Success(r.value[k])
  {
    GenerateProbes(provider, ProbesOf(pairs))
  }

  /** `dtrace_provider`: the unit struct named after the provider and its impl block. */
  function GenerateProvider(def: ProviderDef): (r: Result<ProviderImpl, GenError>)
    ensures r.Success? <==> Generable(ProbesOf(def.pairs))
    ensures r.Success? ==> r.value.name == def.name
    ensures r.Success? ==> |r.value.functions| == |ProbesOf(def.pairs)|
    ensures r.Success? ==> forall k :: 0 <= k < |r.value.functions| ==>
              && r.value.functions[k].name == ProbesOf(def.pairs)[k].name
              && |r.value.functions[k].params| == |ProbesOf(def.pairs)[k].arguments|
    ensures r.Success? ==> forall k :: 0 <= k < |r.value.functions| ==>
              GenerateProbe(def.name, ProbesOf(def.pairs)[k]) == Success(r.value.functions[k])
  {
    var functions :- GenerateFunctions(def.name, def.pairs);
    Success(ProviderImpl(def.name, functions))
  }
}

=== FILE: bytes.dfy ===
/** Byte-level reading primitives used by the probe-record decoder: fixed-width
    little-endian unsigned integers and NUL-terminated C strings, each paired with
    the encoder that produces what it reads. Native endianness is fixed to little-endian. */
module Bytes {
  import opened Results

  type byte = b: int | 0 <= b < 0x100
  type u16 = n: int | 0 <= n < 0x1_0000
  type u32 = n: int | 0 <= n < 0x1_0000_0000
  type u64 = n: int | 0 <= n < 0x1_0000_0000_0000_0000

  /** 256 to the n-th power: one more than the largest n-byte unsigned value. */
  function Pow256(n: nat): (r: nat)
    ensures r >= 1
  {
    if n == 0 then 1 else 0x100 * Pow256(n - 1)
  }

  lemma Pow256Widths()
    ensures Pow256(1) == 0x100
    ensures Pow256(2) == 0x1_0000
    ensures Pow256(4) == 0x1_0000_0000
    ensures Pow256(8) == 0x1_0000_0000_0000_0000
  {
    assert Pow256(1) == 0x100 * Pow256(0);
    assert Pow256(2) == 0x100 * Pow256(1);
    assert Pow256(3) == 0x100 * Pow256(2);
    assert Pow256(4) == 0x100 * Pow256(3);
    assert Pow256(5) == 0x100 * Pow256(4);
    assert Pow256(6) == 0x100 * Pow256(5);
    assert Pow256(7) == 0x100 * Pow256(6);
    assert Pow256(8) == 0x100 * Pow256(7);
  }

  /** The unsigned value of a little-endian byte string (least significant byte first). */
  function FromLittleEndian(bs: seq<byte>): (v: nat)
    ensures v < Pow256(|bs|)
  {
    if |bs| == 0 then 0 else bs[0] + 0x100 * FromLittleEndian(bs[1..])
  }

  /** The n-byte little-endian encoding of v; the writer side of `FromLittleEndian`. */
  function ToLittleEndian(v: nat, n: nat): (bs: seq<byte>)
    requires v < Pow256(n)
    ensures |bs| == n
    ensures FromLittleEndian(bs) == v
  {
    if n == 0 then []
    else
      var rest := ToLittleEndian(v / 0x100, n - 1);
      assert ([v % 0x100] + rest)[1..] == rest;
      [v % 0x100] + rest
  }

  /** Decoding loses nothing: every byte string is the encoding of its own value. */
  lemma {:induction false} LittleEndianRoundTrip(bs: seq<byte>)
    ensures ToLittleEndian(FromLittleEndian(bs), |bs|) == bs
  {
    if |bs| > 0 {
      var v := FromLittleEndian(bs);
      var tail := FromLittleEndian(bs[1..]);
      assert v % 0x100 == bs[0] && v / 0x100 == tail;
      LittleEndianRoundTrip(bs[1..]);
      assert ToLittleEndian(v, |bs|) == [bs[0]] + bs[1..];
    }
  }

  /** Reads an n-byte little-endian unsigned integer from the front of `s`, returning it
      with the bytes after it; `None` when fewer than n bytes remain (an end-of-input
      error in the source's byte reader). */
  function ReadLittleEndian(s: seq<byte>, n: nat): (r: Option<(nat, seq<byte>)>)
    ensures r.Some? <==> |s| >= n
    ensures r.Some? ==> r.value.0 < Pow256(n)
    ensures r.Some? ==> ToLittleEndian(r.value.0, n) == s[..n] && r.value.1 == s[n..]
    ensures r.Some? ==> s == ToLittleEndian(r.value.0, n) + r.value.1
  {
    if |s| < n then None
    else
      LittleEndianRoundTrip(s[..n]);
      assert s == s[..n] + s[n..];
      Some((FromLittleEndian(s[..n]), s[n..]))
  }

  /** Reading back an encoded integer yields the integer and exactly the bytes that follow. */
  lemma ReadLittleEndianOfEncoding(v: nat, n: nat, rest: seq<byte>)
    requires v < Pow256(n)
    ensures ReadLittleEndian(ToLittleEndian(v, n) + rest, n) == Some((v, rest))
  {
    var s := ToLittleEndian(v, n) + rest;
    assert s[..n] == ToLittleEndian(v, n);
    assert s[n..] == rest;
  }

  /** Index of the first NUL byte of `s`, if there is one. */
  function IndexOfNul(s: seq<byte>): (r: Option<nat>)
    ensures r.None? <==> 0 !in s
    ensures r.Some? ==> r.value < |s| && s[r.value] == 0 && 0 !in s[..r.value]
  {
    if |s| == 0 then None
    else if s[0] == 0 then Some(0)
    else
      match IndexOfNul(s[1..])
      case None => None
      case Some(i) =>
        assert s[..i + 1] == [s[0]] + s[1..][..i];
        Some(i + 1)
  }

  /** Reads a NUL-terminated string from the front of `s`: the bytes before the first
      NUL, and the bytes after that NUL. `None` when `s` holds no NUL at all (the source
      panics there). */
  function ReadCstr(s: seq<byte>): (r: Option<(seq<byte>, seq<byte>)>)
    ensures r.None? <==> 0 !in s
    ensures r.Some? ==> 0 !in r.value.0 && s == r.value.0 + [0] + r.value.1
  {
    match IndexOfNul(s)
    case None => None
    case Some(i) =>
      assert s == s[..i] + [0] + s[i + 1..];
      Some((s[..i], s[i + 1..]))
  }

  /** The C-string encoding of a NUL-free byte string: the writer side of `ReadCstr`. */
  function Cstr(name: seq<byte>): (bs: seq<byte>)
    requires 0 !in name
    ensures |bs| == |name| + 1 && bs[|name|] == 0
  {
    name + [0]
  }

  /** The first NUL of an encoded C string is its terminator. */
  lemma {:induction false} IndexOfNulOfEncoding(name: seq<byte>, rest: seq<byte>)
    requires 0 !in name
    ensures IndexOfNul(Cstr(name) + rest) == Some(|name|)
  {
    var s := Cstr(name) + rest;
    if |name| > 0 {
      assert name[0] in name;
      assert s[1..] == Cstr(name[1..]) + rest;
      IndexOfNulOfEncoding(name[1..], rest);
    }
  }

  /** Reading back a C string yields the string and exactly the bytes after its NUL. */
  lemma ReadCstrOfEncoding(name: seq<byte>, rest: seq<byte>)
    requires 0 !in name
    ensures ReadCstr(Cstr(name) + rest) == Some((name, rest))
  {
    var s := Cstr(name) + rest;
    IndexOfNulOfEncoding(name, rest);
    assert s[..|name|] == name && s[|name| + 1..] == rest;
  }
}

=== FILE: locator.dfy ===
/** How `extract_probe_records` in usdt-impl/src/record.rs finds the probe-record section
    of an object file, stated over an abstract view of the parsed file: the section found
    by name, else the bytes between the first two boundary symbols, else no section.
    Parsing the file into that view, and reading the file, are not part of this model. */
module Locator {
  import opened Results
  import opened Bytes
  import opened Record

  /** A string-table lookup: no entry at that index, an entry that is not valid UTF-8,
      or the name. */
  datatype StrLookup = NoEntry | Corrupt | Found(name: string)

  /** An ELF section header: the lookup of its name, its file offset and its size. */
  datatype ElfSection = ElfSection(name: StrLookup, offset: nat, size: nat)

  /** An ELF symbol: the lookup of its name and its value. */
  datatype ElfSymbol = ElfSymbol(name: StrLookup, value: nat)

  /** A Mach-O section with its name and contents. */
  datatype MachSection = MachSection(sectname: string, data: seq<byte>)

  /** A Mach-O symbol with its name and value. */
  datatype MachSymbol = MachSymbol(name: string, value: nat)

  /** The parsed object file. Sections and symbols that failed to parse are `None`; a
      Mach-O binary may have no symbol table at all. `Unrecognized` stands for a file
      that does not parse and for every other kind of object. */
  datatype ObjectFile =
    | Elf(sections: seq<ElfSection>, symbols: seq<ElfSymbol>)
    | MachBinary(machSections: seq<Option<MachSection>>, machSymbols: Option<seq<Option<MachSymbol>>>)
    | Unrecognized

  datatype ExtractError =
    | InvalidFile              // not a supported object file, or a corrupt name in the way
    | BadBounds                // a section or symbol range outside the file (a slice panic)
    | Decode(error: DecodeError)

  const ELF_SECTION: string := "set_dtrace_probes"
  const ELF_START: string := "__start_set_dtrace_probes"
  const ELF_STOP: string := "__stop_set_dtrace_probes"
  const MACH_SECTION: string := "__dtrace_probes"

  /** What one step of a `filter_map` produces: nothing, an error, or a hit. */
  datatype Hit<T> = Miss | Bad | Hit(value: T)

  /** The items a `filter_map` yields, in order. */
  function NonMisses<T>(xs: seq<Hit<T>>): (r: seq<Hit<T>>)
    ensures |r| <= |xs|
    ensures forall i :: 0 <= i < |r| ==> !r[i].Miss?
    ensures forall i :: 0 <= i < |r| ==> r[i] in xs
    ensures forall i :: 0 <= i < |xs| && !xs[i].Miss? ==> xs[i] in r
    ensures |r| == 0 <==> forall i :: 0 <= i < |xs| ==> xs[i].Miss?
  {
    if |xs| == 0 then []
    else
      var rest := NonMisses(xs[1..]);
      assert forall i :: 0 < i < |xs| ==> xs[i] == xs[1..][i - 1];
      if xs[0].Miss? then rest else [xs[0]] + rest
  }

  /** The first item yielded is the first entry that is not a miss. */
  lemma {:induction false} FirstNonMiss<T>(xs: seq<Hit<T>>, i: nat)
    requires i < |xs| && !xs[i].Miss?
    requires forall j :: 0 <= j < i ==> xs[j].Miss?
    ensures |NonMisses(xs)| > 0 && NonMisses(xs)[0] == xs[i]
  {
    if i > 0 {
      FirstNonMiss(xs[1..], i - 1);
    }
  }

  /** The second item yielded is the next entry after the first that is not a miss. */
  lemma {:induction false} SecondNonMiss<T>(xs: seq<Hit<T>>, i: nat, j: nat)
    requires i < j < |xs| && !xs[i].Miss? && !xs[j].Miss?
    requires forall k :: 0 <= k < j && k != i ==> xs[k].Miss?
    ensures |NonMisses(xs)| > 1 && NonMisses(xs)[0] == xs[i] && NonMisses(xs)[1] == xs[j]
  {
    if i > 0 {
      SecondNonMiss(xs[1..], i - 1, j - 1);
    } else {
      FirstNonMiss(xs[1..], j - 1);
    }
  }

  /** Filtering distributes over concatenation: the items come in the order of their entries. */
  lemma {:induction false} NonMissesAppend<T>(x: seq<Hit<T>>, y: seq<Hit<T>>)
    ensures NonMisses(x + y) == NonMisses(x) + NonMisses(y)
  {
    if |x| > 0 {
      assert (x + y)[1..] == x[1..] + y;
      NonMissesAppend(x[1..], y);
    } else {
      assert x + y == y;
    }
  }

  /** One entry yields itself, unless it is a miss. */
  lemma NonMissesOne<T>(h: Hit<T>)
    ensures NonMisses([h]) == if h.Miss? then [] else [h]
  {
  }

  /** `haystack` contains `needle` somewhere, as `str::contains`. */
  function Contains(haystack: string, needle: string): (r: bool)
    ensures r ==> |needle| <= |haystack|
    ensures |needle| == |haystack| ==> (r <==> needle == haystack)
  {
    if needle <= haystack then true
    else if |haystack| == 0 then false
    else Contains(haystack[1..], needle)
  }

  /** A needle found at any position makes `Contains` true. */
  lemma {:induction false} ContainsAt(haystack: string, needle: string, i: nat)
    requires i + |needle| <= |haystack| && haystack[i..i + |needle|] == needle
    ensures Contains(haystack, needle)
  {
    if i > 0 && !(needle <= haystack) {
      assert haystack[1..][i - 1..i - 1 + |needle|] == haystack[i..i + |needle|];
      ContainsAt(haystack[1..], needle, i - 1);
    }
  }

  /** When `Contains` holds, the needle occurs at some position. */
  lemma {:induction false} ContainsPosition(haystack: string, needle: string) returns (i: nat)
    requires Contains(haystack, needle)
    ensures i + |needle| <= |haystack| && haystack[i..i + |needle|] == needle
  {
    if needle <= haystack {
      i := 0;
    } else {
      var j := ContainsPosition(haystack[1..], needle);
      assert haystack[j + 1..j + 1 + |needle|] == haystack[1..][j..j + |needle|];
      i := j + 1;
    }
  }

  /** `data[start..end]`, or the panic of an out-of-range slice. */
  function Slice(data: seq<byte>, start: nat, end: nat): (r: Result<seq<byte>, ExtractError>)
    ensures r.Success? <==> start <= end <= |data|
    ensures r.Success? ==> |r.value| == end - start && data == data[..start] + r.value + data[end..]
    ensures r.Failure? ==> r.error == BadBounds
  {
    if start <= end <= |data| then
      assert data == data[..start] + data[start..end] + data[end..];
      Success(data[start..end])
    else Failure(BadBounds)
  }

  /** The section decoder's result as an extraction result. */
  function DecodeSection(bytes: seq<byte>, resolve: Resolver): (r: Result<Option<Section>, ExtractError>)
    ensures r.Success? ==> r.value.Some? && WellFormed(r.value.value.providers)
    ensures r.Failure? ==> r.error.Decode? && ProcessSection(bytes, resolve) == Failure(r.error.error)
    ensures ProcessSection(bytes, resolve).Success? ==> r == Success(ProcessSection(bytes, resolve).value)
  {
    match ProcessSection(bytes, resolve)
    case Success(s) => Success(s)
    case Failure(e) => Failure(Decode(e))
  }

  /** Decode the bytes between `start` and `end`. */
  function DecodeRange(data: seq<byte>, start: nat, end: nat, resolve: Resolver)
    : (r: Result<Option<Section>, ExtractError>)
    ensures r.Success? ==> r.value.Some? && WellFormed(r.value.value.providers)
    ensures r.Failure? ==> r.error.BadBounds? || r.error.Decode?
    ensures start <= end <= |data| ==> r == DecodeSection(data[start..end], resolve)
    ensures !(start <= end <= |data|) ==> r == Failure(BadBounds)
  {
    var bytes :- Slice(data, start, end);
    DecodeSection(bytes, resolve)
  }

  /** One ELF section header through the lookup filter. */
  function ElfSectionHit(h: ElfSection): (r: Hit<ElfSection>)
    ensures r.Bad? <==> h.name.Corrupt?
    ensures r.Hit? <==> h.name == Found(ELF_SECTION)
    ensures r.Hit? ==> r.value == h
  {
    match h.name
    case NoEntry => Miss
    case Corrupt => Bad
    case Found(n) => if n == ELF_SECTION then Hit(h) else Miss
  }

  /** One ELF symbol through the boundary-symbol filter. */
  function ElfSymbolHit(s: ElfSymbol): (r: Hit<ElfSymbol>)
    ensures r.Bad? <==> s.name.Corrupt?
    ensures r.Hit? <==> s.name == Found(ELF_START) || s.name == Found(ELF_STOP)
    ensures r.Hit? ==> r.value == s
  {
    match s.name
    case NoEntry => Miss
    case Corrupt => Bad
    case Found(n) => if n == ELF_START || n == ELF_STOP then Hit(s) else Miss
  }

  function ElfSectionHits(sections: seq<ElfSection>): seq<Hit<ElfSection>> {
    NonMisses(seq(|sections|, i requires 0 <= i < |sections| => ElfSectionHit(sections[i])))
  }

  function ElfSymbolHits(symbols: seq<ElfSymbol>): seq<Hit<ElfSymbol>> {
    NonMisses(seq(|symbols|, i requires 0 <= i < |symbols| => ElfSymbolHit(symbols[i])))
  }

  /** The first two boundary symbols were both read without error. */
  predicate ElfBoundsFound(symbols: seq<ElfSymbol>)
    ensures ElfBoundsFound(symbols) ==> |symbols| >= 2
  {
    var b := ElfSymbolHits(symbols);
    |b| >= 2 && b[0].Hit? && b[1].Hit?
  }

  /** Two boundary symbols with nothing but passed-over symbols before the second one
      are the bounds, in table order. */
  lemma ElfBoundsAt(symbols: seq<ElfSymbol>, i: nat, j: nat)
    requires i < j < |symbols|
    requires ElfSymbolHit(symbols[i]).Hit? && ElfSymbolHit(symbols[j]).Hit?
    requires forall k :: 0 <= k < j && k != i ==> ElfSymbolHit(symbols[k]).Miss?
    ensures ElfBoundsFound(symbols)
    ensures ElfSymbolHits(symbols)[0] == Hit(symbols[i]) && ElfSymbolHits(symbols)[1] == Hit(symbols[j])
  {
    var hits := seq(|symbols|, k requires 0 <= k < |symbols| => ElfSymbolHit(symbols[k]));
    SecondNonMiss(hits, i, j);
  }

  /** The ELF branch: the first header named `set_dtrace_probes` (a corrupt name met first
      is an error), else the range between the first two boundary symbols (a corrupt name
      among those two gives no section rather than an error), else no section. */
  function ExtractElf(sections: seq<ElfSection>, symbols: seq<ElfSymbol>, data: seq<byte>, resolve: Resolver)
    : (r: Result<Option<Section>, ExtractError>)
    ensures r == Success(None) <==> |ElfSectionHits(sections)| == 0 && !ElfBoundsFound(symbols)
    ensures r == Failure(InvalidFile) <==>
              |ElfSectionHits(sections)| > 0 && ElfSectionHits(sections)[0].Bad?
    ensures r.Success? && r.value.Some? ==> WellFormed(r.value.value.providers)
  {
    var found := ElfSectionHits(sections);
    if |found| > 0 then
      if found[0].Bad? then Failure(InvalidFile)
      else
        var h := found[0].value;
        DecodeRange(data, h.offset, h.offset + h.size, resolve)
    else
      var bounds := ElfSymbolHits(symbols);
      if |bounds| >= 2 && bounds[0].Hit? && bounds[1].Hit? then
        DecodeRange(data, bounds[0].value.value, bounds[1].value.value, resolve)
      else Success(None)
  }

  /** One Mach-O section through the name filter; sections that failed to parse are passed over. */
  function MachSectionHit(s: Option<MachSection>): (r: Hit<seq<byte>>)
    ensures !r.Bad?
    ensures r.Hit? <==> s.Some? && MACH_SECTION <= s.value.sectname
    ensures r.Hit? ==> r.value == s.value.data
  {
    match s
    case None => Miss
    case Some(sec) => if MACH_SECTION <= sec.sectname then Hit(sec.data) else Miss
  }

  /** One Mach-O symbol through the name filter; symbols that failed to parse are passed over. */
  function MachSymbolHit(s: Option<MachSymbol>): (r: Hit<nat>)
    ensures !r.Bad?
    ensures r.Hit? <==> s.Some? && Contains(s.value.name, MACH_SECTION)
    ensures r.Hit? ==> r.value == s.value.value
  {
    match s
    case None => Miss
    case Some(sym) => if Contains(sym.name, MACH_SECTION) then Hit(sym.value) else Miss
  }

  function MachSectionHits(sections: seq<Option<MachSection>>): seq<Hit<seq<byte>>> {
    NonMisses(seq(|sections|, i requires 0 <= i < |sections| => MachSectionHit(sections[i])))
  }

  function MachSymbolHits(symbols: seq<Option<MachSymbol>>): seq<Hit<nat>> {
    NonMisses(seq(|symbols|, i requires 0 <= i < |symbols| => MachSymbolHit(symbols[i])))
  }

  /** There is a symbol table and at least two of its symbols mention `__dtrace_probes`. */
  predicate MachBoundsFound(symbols: Option<seq<Option<MachSymbol>>>)
    ensures MachBoundsFound(symbols) ==> symbols.Some? && |symbols.value| >= 2
  {
    symbols.Some? && |MachSymbolHits(symbols.value)| >= 2
  }

  /** Two symbols mentioning `__dtrace_probes`, with no other such symbol before the
      second one, give the bounds, in table order. */
  lemma MachBoundsAt(symbols: seq<Option<MachSymbol>>, i: nat, j: nat)
    requires i < j < |symbols|
    requires MachSymbolHit(symbols[i]).Hit? && MachSymbolHit(symbols[j]).Hit?
    requires forall k :: 0 <= k < j && k != i ==> MachSymbolHit(symbols[k]).Miss?
    ensures MachBoundsFound(Some(symbols))
    ensures MachSymbolHits(symbols)[0] == Hit(symbols[i].value.value)
    ensures MachSymbolHits(symbols)[1] == Hit(symbols[j].value.value)
  {
    var hits := seq(|symbols|, k requires 0 <= k < |symbols| => MachSymbolHit(symbols[k]));
    SecondNonMiss(hits, i, j);
  }

  /** The Mach-O branch: the contents of the first section whose name starts with
      `__dtrace_probes`, else the range between the first two symbols whose names contain
      it, else no section. Nothing on this path is an error before decoding. */
  function ExtractMach(sections: seq<Option<MachSection>>, symbols: Option<seq<Option<MachSymbol>>>,
                       data: seq<byte>, resolve: Resolver)
    : (r: Result<Option<Section>, ExtractError>)
    ensures r == Success(None) <==> |MachSectionHits(sections)| == 0 && !MachBoundsFound(symbols)
    ensures r.Failure? ==> r.error.BadBounds? || r.error.Decode?
    ensures r.Success? && r.value.Some? ==> WellFormed(r.value.value.providers)
  {
    var found := MachSectionHits(sections);
    if |found| > 0 then DecodeSection(found[0].value, resolve)
    else if symbols.None? then Success(None)
    else
      var bounds := MachSymbolHits(symbols.value);
      if |bounds| >= 2 then DecodeRange(data, bounds[0].value, bounds[1].value, resolve)
      else Success(None)
  }

  /** `extract_probe_records` after the file has been read and parsed: `data` is the whole
      file. `Success(None)` means a valid file without probe records. */
  function ExtractProbeRecords(file: ObjectFile, data: seq<byte>, resolve: Resolver)
    : (r: Result<Option<Section>, ExtractError>)
    ensures file.Unrecognized? ==> r == Failure(InvalidFile)
    ensures file.MachBinary? ==> r != Failure(InvalidFile)
    ensures r.Success? && r.value.Some? ==> WellFormed(r.value.value.providers)
    ensures r == Success(None) <==>
              || (file.Elf? && |ElfSectionHits(file.sections)| == 0 && !ElfBoundsFound(file.symbols))
              || (file.MachBinary? && |MachSectionHits(file.machSections)| == 0
                  && !MachBoundsFound(file.machSymbols))
  {
    match file
    case Elf(sections, symbols) => ExtractElf(sections, symbols, data, resolve)
    case MachBinary(sections, symbols) => ExtractMach(sections, symbols, data, resolve)
    case Unrecognized => Failure(InvalidFile)
  }

  /** A header named `set_dtrace_probes` is used when every header before it has a
      readable name or none at all: its bytes are decoded, whatever the symbols say. */
  lemma ElfNamedSectionWins(sections: seq<ElfSection>, symbols: seq<ElfSymbol>, data: seq<byte>,
                            resolve: Resolver, i: nat)
    requires i < |sections| && sections[i].name == Found(ELF_SECTION)
    requires forall j :: 0 <= j < i ==> !sections[j].name.Corrupt? && sections[j].name != Found(ELF_SECTION)
    ensures ExtractProbeRecords(Elf(sections, symbols), data, resolve)
              == DecodeRange(data, sections[i].offset, sections[i].offset + sections[i].size, resolve)
  {
    var hits := seq(|sections|, k requires 0 <= k < |sections| => ElfSectionHit(sections[k]));
    FirstNonMiss(hits, i);
    assert ElfSectionHits(sections)[0] == Hit(sections[i]);
  }

  /** A corrupt header name met before the named section makes the file invalid. */
  lemma ElfCorruptHeaderName(sections: seq<ElfSection>, symbols: seq<ElfSymbol>, data: seq<byte>,
                             resolve: Resolver, i: nat)
    requires i < |sections| && sections[i].name.Corrupt?
    requires forall j :: 0 <= j < i ==> !sections[j].name.Corrupt? && sections[j].name != Found(ELF_SECTION)
    ensures ExtractProbeRecords(Elf(sections, symbols), data, resolve) == Failure(InvalidFile)
  {
    var hits := seq(|sections|, k requires 0 <= k < |sections| => ElfSectionHit(sections[k]));
    FirstNonMiss(hits, i);
  }

  /** No section header names the records, and none has a corrupt name. */
  predicate NoRecordSection(sections: seq<ElfSection>) {
    forall j :: 0 <= j < |sections| ==> !sections[j].name.Corrupt? && sections[j].name != Found(ELF_SECTION)
  }

  lemma NoRecordSectionHits(sections: seq<ElfSection>)
    requires NoRecordSection(sections)
    ensures |ElfSectionHits(sections)| == 0
  {
    var hits := seq(|sections|, k requires 0 <= k < |sections| => ElfSectionHit(sections[k]));
    assert forall k :: 0 <= k < |hits| ==> hits[k].Miss?;
  }

  /** Every symbol the boundary filter lets through is named `__start_set_dtrace_probes`
      or `__stop_set_dtrace_probes`. */
  lemma ElfSymbolHitsAreBoundaries(symbols: seq<ElfSymbol>)
    ensures forall i :: 0 <= i < |ElfSymbolHits(symbols)| && ElfSymbolHits(symbols)[i].Hit? ==>
              ElfSymbolHits(symbols)[i].value.name in {Found(ELF_START), Found(ELF_STOP)}
  {
    var xs := seq(|symbols|, k requires 0 <= k < |symbols| => ElfSymbolHit(symbols[k]));
    forall i | 0 <= i < |ElfSymbolHits(symbols)| && ElfSymbolHits(symbols)[i].Hit?
      ensures ElfSymbolHits(symbols)[i].value.name in {Found(ELF_START), Found(ELF_STOP)}
    {
      var h := ElfSymbolHits(symbols)[i];
      assert h in xs;
      var k :| 0 <= k < |xs| && xs[k] == h;
      assert ElfSymbolHit(symbols[k]) == h;
    }
  }

  /** Without a section header for the records (a stripped file), the bytes between the
      values of the first two boundary symbols are decoded when both were read without
      error. */
  lemma StrippedElfUsesBoundarySymbols(sections: seq<ElfSection>, symbols: seq<ElfSymbol>,
                                       data: seq<byte>, resolve: Resolver)
    requires NoRecordSection(sections) && ElfBoundsFound(symbols)
    ensures var b := ElfSymbolHits(symbols);
            && b[0].value.name in {Found(ELF_START), Found(ELF_STOP)}
            && b[1].value.name in {Found(ELF_START), Found(ELF_STOP)}
            && ExtractProbeRecords(Elf(sections, symbols), data, resolve)
                 == DecodeRange(data, b[0].value.value, b[1].value.value, resolve)
  {
    NoRecordSectionHits(sections);
    ElfSymbolHitsAreBoundaries(symbols);
  }

  /** Without a section header for the records, and without two readable boundary
      symbols first, extraction reports no section. */
  lemma StrippedElfWithoutBounds(sections: seq<ElfSection>, symbols: seq<ElfSymbol>,
                                 data: seq<byte>, resolve: Resolver)
    requires NoRecordSection(sections) && !ElfBoundsFound(symbols)
    ensures ExtractProbeRecords(Elf(sections, symbols), data, resolve) == Success(None)
  {
    NoRecordSectionHits(sections);
  }

  /** A corrupt symbol name met before any boundary symbol does not make the file
      invalid: extraction reports no section. */
  lemma StrippedElfCorruptSymbolName(sections: seq<ElfSection>, symbols: seq<ElfSymbol>,
                                     data: seq<byte>, resolve: Resolver, i: nat)
    requires NoRecordSection(sections)
    requires i < |symbols| && symbols[i].name.Corrupt?
    requires forall j :: 0 <= j < i ==> ElfSymbolHit(symbols[j]).Miss?
    ensures ExtractProbeRecords(Elf(sections, symbols), data, resolve) == Success(None)
  {
    var xs := seq(|symbols|, k requires 0 <= k < |symbols| => ElfSymbolHit(symbols[k]));
    FirstNonMiss(xs, i);
    StrippedElfWithoutBounds(sections, symbols, data, resolve);
  }

  /** The first Mach-O section whose name starts with `__dtrace_probes` is decoded, after
      passing over sections that failed to parse or are named otherwise. */
  lemma MachNamedSectionWins(sections: seq<Option<MachSection>>, symbols: Option<seq<Option<MachSymbol>>>,
                             data: seq<byte>, resolve: Resolver, i: nat)
    requires i < |sections| && sections[i].Some? && MACH_SECTION <= sections[i].value.sectname
    requires forall j :: 0 <= j < i ==> sections[j].None? || !(MACH_SECTION <= sections[j].value.sectname)
    ensures ExtractProbeRecords(MachBinary(sections, symbols), data, resolve)
              == DecodeSection(sections[i].value.data, resolve)
  {
    var hits := seq(|sections|, k requires 0 <= k < |sections| => MachSectionHit(sections[k]));
    FirstNonMiss(hits, i);
  }
}

=== FILE: record.dfy ===
/** The probe-record decoder of usdt-impl/src/record.rs: a flat section of back-to-back
    records, each

      u32 len | u8 version | u8 n_args | u16 flags | u64 address
              | cstr provider | cstr probe | cstr arg[n_args]

    is folded into a map from provider names to providers, each holding its probes with
    their anchor address, offset lists and argument descriptions. Every panic of the
    source (a failed `assert!`, an `expect`, an out-of-range slice) is a `DecodeError`
    here. The symbol lookup `addr_to_info` is the `resolve` parameter. */
module Record {
  import opened Results
  import opened Bytes

  /** The newest record format this decoder understands. */
  const PROBE_REC_VERSION: byte := 1

  /** Name-length maxima from dtrace.h; each includes room for a terminating NUL. */
  const MAX_PROVIDER_NAME_LEN: nat := 64
  const MAX_PROBE_NAME_LEN: nat := 64
  const MAX_FUNC_NAME_LEN: nat := 128
  const MAX_ARG_TYPE_LEN: nat := 128

  /** Bytes in the fixed part of a record: length, version, argument count, flags, address. */
  const HEADER_LEN: nat := 16

  type Name = seq<byte>

  /** Symbol lookup: the function name containing an address, if the loader knows one. */
  type Resolver = u64 -> Option<Name>

  datatype Probe = Probe(
    name: Name,
    func: Name,              // the function the probe sits in
    address: u64,            // the anchor: address of the first record seen for this probe
    offsets: seq<u32>,       // regular probe sites, relative to the anchor
    enabledOffsets: seq<u32>, // is-enabled probe sites, relative to the anchor
    arguments: seq<Name>)

  datatype Provider = Provider(name: Name, probes: map<Name, Probe>)

  type Providers = map<Name, Provider>

  datatype Section = Section(providers: Providers)

  datatype DecodeError =
    | MissingLengthHeader   // fewer than 4 bytes left where a length was expected
    | LengthBeyondSection   // a length prefix larger than what is left of the section
    | RecordTooShort        // a length prefix smaller than the 4 bytes of the prefix itself
    | TruncatedHeader       // the record ends inside version, n_args, flags or address
    | UnterminatedString    // a name or argument with no NUL before the record ends
    | AddressBeforeAnchor   // an address below the probe's anchor address

  /** One record as read from the section. Provider and probe names are as written;
      argument descriptions are already cut to `MAX_ARG_TYPE_LEN`. */
  datatype ProbeRecord = ProbeRecord(
    version: byte,
    flags: u16,
    address: u64,
    provider: Name,
    probe: Name,
    arguments: seq<Name>)

  /** What one record slice decodes to: a record of a newer format is skipped. */
  datatype Decoded = Skipped | Parsed(record: ProbeRecord)

  function Min(a: nat, b: nat): nat {
    if a <= b then a else b
  }

  /** Cuts `s` so that it fits, with a terminating NUL, in `limit` bytes. */
  function LimitStringLength(s: Name, limit: nat): (r: Name)
    requires limit >= 1
    ensures r <= s
    ensures |r| < limit
    ensures |s| < limit ==> r == s
    ensures |s| >= limit ==> |r| == limit - 1
  {
    s[..Min(|s|, limit - 1)]
  }

  /** Cutting an already cut name changes nothing. */
  lemma LimitStringLengthIdempotent(s: Name, limit: nat)
    requires limit >= 1
    ensures LimitStringLength(LimitStringLength(s, limit), limit) == LimitStringLength(s, limit)
  {
  }

  /** A lower-case hexadecimal digit in ASCII: '0'-'9' or 'a'-'f'. */
  predicate IsHexDigit(c: byte) {
    48 <= c <= 57 || 97 <= c <= 102
  }

  /** Lower-case hexadecimal digit of a value below 16, as an ASCII byte. */
  function HexDigit(d: nat): (c: byte)
    requires d < 16
    ensures IsHexDigit(c)
  {
    if d < 10 then 48 + d else 87 + d
  }

  /** Lower-case hexadecimal digits of n, without leading zeros ("0" for zero). */
  function HexDigits(n: nat): (r: seq<byte>)
    ensures |r| >= 1 && (|r| == 1 <==> n < 16)
    ensures forall i :: 0 <= i < |r| ==> IsHexDigit(r[i])
  {
    if n < 16 then [HexDigit(n)] else HexDigits(n / 16) + [HexDigit(n % 16)]
  }

  /** Value of a lower-case hexadecimal digit string; the reader side of `HexDigits`. */
  function HexValue(s: seq<byte>): nat {
    if |s| == 0 then 0
    else
      var c := s[|s| - 1];
      var d := if 48 <= c <= 57 then c - 48 else if 97 <= c <= 102 then c - 87 else 0;
      16 * HexValue(s[..|s| - 1]) + d
  }

  /** `HexDigits` loses nothing and writes no leading zero. */
  lemma {:induction false} HexDigitsRoundTrip(n: nat)
    ensures HexValue(HexDigits(n)) == n
    ensures n > 0 ==> HexDigits(n)[0] != 48
  {
    if n >= 16 {
      HexDigitsRoundTrip(n / 16);
      var s := HexDigits(n);
      assert s[..|s| - 1] == HexDigits(n / 16);
    }
  }

  /** Rust's `format!("?{:#x}", address)`: the function name used when resolution fails. */
  function UnresolvedName(address: u64): (r: Name)
    ensures |r| > 3 && r[..3] == [63, 48, 120]   // "?0x"
    ensures HexValue(r[3..]) == address
    ensures address > 0 ==> r[3] != 48           // no leading zero
    ensures forall i :: 3 <= i < |r| ==> IsHexDigit(r[i])
  {
    HexDigitsRoundTrip(address);
    var r := [63, 48, 120] + HexDigits(address);
    assert r[3..] == HexDigits(address);
    r
  }

  /** The function name recorded for a new probe: the resolved symbol, cut to
      `MAX_FUNC_NAME_LEN`, or the `?0x...` placeholder. */
  function FunctionName(resolve: Resolver, address: u64): (r: Name)
    ensures resolve(address).Some? ==> r <= resolve(address).value && |r| < MAX_FUNC_NAME_LEN
    ensures resolve(address).Some? && |resolve(address).value| < MAX_FUNC_NAME_LEN ==> r == resolve(address).value
    ensures resolve(address).Some? && |resolve(address).value| >= MAX_FUNC_NAME_LEN ==> |r| == MAX_FUNC_NAME_LEN - 1
    ensures resolve(address).None? ==> r == UnresolvedName(address)
  {
    match resolve(address)
    case Some(s) => LimitStringLength(s, MAX_FUNC_NAME_LEN)
    case None => UnresolvedName(address)
  }

  function ReadField(s: seq<byte>, n: nat): (r: Result<(nat, seq<byte>), DecodeError>)
    ensures r.Failure? <==> |s| < n
    ensures r.Success? ==> r.value.0 < Pow256(n)
    ensures r.Success? ==> ToLittleEndian(r.value.0, n) == s[..n] && r.value.1 == s[n..]
    ensures r.Failure? ==> r.error == TruncatedHeader
  {
    match ReadLittleEndian(s, n)
    case None => Failure(TruncatedHeader)
    case Some(v) => Success(v)
  }

  function ReadName(s: seq<byte>): (r: Result<(Name, seq<byte>), DecodeError>)
    ensures r.Success? ==> 0 !in r.value.0 && s == r.value.0 + [0] + r.value.1
    ensures r.Failure? <==> 0 !in s
    ensures r.Failure? ==> r.error == UnterminatedString
  {
    match ReadCstr(s)
    case None => Failure(UnterminatedString)
    case Some(v) => Success(v)
  }

  /** Reads `n` C strings in order, each cut to `MAX_ARG_TYPE_LEN`. It succeeds exactly
      when at least `n` NULs remain. */
  function ReadArguments(s: seq<byte>, n: nat): (r: Result<(seq<Name>, seq<byte>), DecodeError>)
    ensures r.Success? <==> multiset(s)[0] >= n
    ensures r.Success? ==> |r.value.0| == n
    ensures r.Success? ==> forall i :: 0 <= i < n ==> |r.value.0[i]| < MAX_ARG_TYPE_LEN
    ensures r.Success? ==> |r.value.1| <= |s| && multiset(r.value.1)[0] == multiset(s)[0] - n
    ensures r.Failure? ==> r.error == UnterminatedString
    decreases n
  {
    if n == 0 then Success(([], s))
    else
      match ReadName(s)
      case Failure(e) =>
        assert multiset(s)[0] == 0;
        Failure(e)
      case Success(first) =>
        assert s == first.0 + [0] + first.1;
        assert multiset(s) == multiset(first.0) + multiset([0]) + multiset(first.1);
        assert multiset(first.0)[0] == 0;
        var rest :- ReadArguments(first.1, n - 1);
        Success(([LimitStringLength(first.0, MAX_ARG_TYPE_LEN)] + rest.0, rest.1))
  }

  /** The header facts a parsed record carries about the bytes it came from. */
  ghost predicate HeaderOf(rec: seq<byte>, r: ProbeRecord) {
    && |rec| >= HEADER_LEN
    && r.version == rec[4] && r.version <= PROBE_REC_VERSION
    && |r.arguments| == rec[5]
    && r.flags == FromLittleEndian(rec[6..8])
    && r.address == FromLittleEndian(rec[8..16])
    && 0 !in r.provider && 0 !in r.probe
    && (forall i :: 0 <= i < |r.arguments| ==> |r.arguments[i]| < MAX_ARG_TYPE_LEN)
  }

  /** Decodes the fields of one record slice (the first half of `process_rec`). The
      version byte is looked at before the rest of the header, so a record of a newer
      format is skipped as soon as its version byte is present. */
  function ParseRecord(rec: seq<byte>): (r: Result<Decoded, DecodeError>)
    ensures |rec| < 4 ==> r == Failure(RecordTooShort)
    ensures (r.Success? && r.value.Skipped?) <==> (|rec| > 4 && rec[4] > PROBE_REC_VERSION)
    ensures (4 <= |rec| < HEADER_LEN && !(|rec| > 4 && rec[4] > PROBE_REC_VERSION))
              ==> r == Failure(TruncatedHeader)
    ensures r.Success? && r.value.Parsed? ==> HeaderOf(rec, r.value.record)
    ensures r.Failure? ==> r.error in {RecordTooShort, TruncatedHeader, UnterminatedString}
  {
    if |rec| < 4 then Failure(RecordTooShort)           // `&rec[4..]` out of range
    else if |rec| == 4 then Failure(TruncatedHeader)    // `read_u8` of the version at end of input
    else if rec[4] > PROBE_REC_VERSION then Success(Skipped)
    else
      var record :- ParseFields(rec[4], rec[5..]);
      ParsedHeader(rec, record);
      Success(Parsed(record))
  }

  /** The facts `ParseFields` states about the bytes after the version byte are the
      header facts about the whole record. */
  lemma ParsedHeader(rec: seq<byte>, record: ProbeRecord)
    requires |rec| >= HEADER_LEN && rec[4] <= PROBE_REC_VERSION && record.version == rec[4]
    requires |record.arguments| == rec[5..][0]
    requires record.flags == FromLittleEndian(rec[5..][1..3])
    requires record.address == FromLittleEndian(rec[5..][3..11])
    requires 0 !in record.provider && 0 !in record.probe
    requires forall i :: 0 <= i < |record.arguments| ==> |record.arguments[i]| < MAX_ARG_TYPE_LEN
    ensures HeaderOf(rec, record)
  {
    assert rec[5..][1..3] == rec[6..8];
    assert rec[5..][3..11] == rec[8..16];
  }

  /** Reads argument count, flags and address, the fixed fields after the version byte. */
  function ReadFixedFields(s: seq<byte>): (r: Result<(byte, u16, u64, seq<byte>), DecodeError>)
    ensures r.Failure? <==> |s| < HEADER_LEN - 5
    ensures r.Failure? ==> r.error == TruncatedHeader
    ensures r.Success? ==>
              && r.value.0 == s[0]
              && r.value.1 == FromLittleEndian(s[1..3])
              && r.value.2 == FromLittleEndian(s[3..11])
              && r.value.3 == s[11..]
  {
    Pow256Widths();
    var nArgs :- ReadField(s, 1);
    var flags :- ReadField(nArgs.1, 2);
    var address :- ReadField(flags.1, 8);
    assert s[1..3] == nArgs.1[..2] && s[3..11] == flags.1[..8] && s[11..] == address.1;
    Success((nArgs.0 as byte, flags.0 as u16, address.0 as u64, address.1))
  }

  /** Decodes what follows the version byte of a supported record. */
  function ParseFields(version: byte, s: seq<byte>): (r: Result<ProbeRecord, DecodeError>)
    ensures |s| < HEADER_LEN - 5 ==> r == Failure(TruncatedHeader)
    ensures r.Success? ==>
              && |s| >= HEADER_LEN - 5
              && r.value.version == version
              && |r.value.arguments| == s[0]
              && r.value.flags == FromLittleEndian(s[1..3])
              && r.value.address == FromLittleEndian(s[3..11])
              && 0 !in r.value.provider && 0 !in r.value.probe
              && (forall i :: 0 <= i < |r.value.arguments| ==> |r.value.arguments[i]| < MAX_ARG_TYPE_LEN)
    ensures r.Failure? ==> r.error in {TruncatedHeader, UnterminatedString}
  {
    var fixed :- ReadFixedFields(s);
    var provider :- ReadName(fixed.3);
    var probe :- ReadName(provider.1);
    var args :- ReadArguments(probe.1, fixed.0);
    Success(ProbeRecord(version, fixed.1, fixed.2, provider.0, probe.0, args.0))
  }

  /** The key under which a record's provider is filed. */
  function ProviderKey(rec: ProbeRecord): Name {
    LimitStringLength(rec.provider, MAX_PROVIDER_NAME_LEN)
  }

  /** The key under which a record's probe is filed within its provider. */
  function ProbeKey(rec: ProbeRecord): Name {
    LimitStringLength(rec.probe, MAX_PROBE_NAME_LEN)
  }

  /** The probe already filed under the provider and probe keys, if any. */
  function Lookup(providers: Providers, provider: Name, probe: Name): Option<Probe> {
    if provider in providers && probe in providers[provider].probes
    then Some(providers[provider].probes[probe])
    else None
  }

  /** The entry a record is merged into before this record is applied. */
  function PriorProbe(providers: Providers, rec: ProbeRecord): Option<Probe> {
    Lookup(providers, ProviderKey(rec), ProbeKey(rec))
  }

  /** Rust's `(address - anchor) as u32`: the difference truncated to its low 32 bits. */
  function Offset(address: u64, anchor: u64): (r: u32)
    requires anchor <= address
    ensures address - anchor < 0x1_0000_0000 ==> r == address - anchor
    ensures (r - (address - anchor)) % 0x1_0000_0000 == 0
  {
    (address - anchor) % 0x1_0000_0000
  }

  /** Files one decoded record into the provider map (the second half of `process_rec`):
      find or create the provider and probe, replace the argument list, and append the
      offset from the anchor to the regular or the is-enabled list. */
  function ApplyRecord(providers: Providers, rec: ProbeRecord, resolve: Resolver)
    : (r: Result<Providers, DecodeError>)
    // fails exactly when the address lies below an existing anchor
    ensures r.Success? <==>
              (PriorProbe(providers, rec).None? || PriorProbe(providers, rec).value.address <= rec.address)
    ensures r.Failure? ==> r.error == AddressBeforeAnchor
    // the provider and probe keys now exist, and nothing else changed
    ensures r.Success? ==> r.value.Keys == providers.Keys + {ProviderKey(rec)}
    ensures r.Success? ==> forall k :: k in providers && k != ProviderKey(rec) ==> r.value[k] == providers[k]
    ensures r.Success? ==>
              var pv := ProviderKey(rec);
              && r.value[pv].name == (if pv in providers then providers[pv].name else pv)
              && r.value[pv].probes.Keys ==
                   (if pv in providers then providers[pv].probes.Keys else {}) + {ProbeKey(rec)}
              && forall k :: pv in providers && k in providers[pv].probes && k != ProbeKey(rec) ==>
                   r.value[pv].probes[k] == providers[pv].probes[k]
    // a new probe is named after its key and anchored at this record's address
    ensures r.Success? && PriorProbe(providers, rec).None? ==>
              var p := r.value[ProviderKey(rec)].probes[ProbeKey(rec)];
              && p.name == ProbeKey(rec)
              && p.func == FunctionName(resolve, rec.address)
              && p.address == rec.address
    // an existing probe keeps its name, function and anchor
    ensures r.Success? && PriorProbe(providers, rec).Some? ==>
              var p := r.value[ProviderKey(rec)].probes[ProbeKey(rec)];
              var q := PriorProbe(providers, rec).value;
              p.name == q.name && p.func == q.func && p.address == q.address
    // the arguments are the record's; exactly one offset list grows by one entry
    ensures r.Success? ==>
              var p := r.value[ProviderKey(rec)].probes[ProbeKey(rec)];
              var prior := PriorProbe(providers, rec);
              var offsets := if prior.Some? then prior.value.offsets else [];
              var enabled := if prior.Some? then prior.value.enabledOffsets else [];
              && p.address <= rec.address
              && p.arguments == rec.arguments
              && (rec.flags == 0 ==>
                    p.offsets == offsets + [Offset(rec.address, p.address)] && p.enabledOffsets == enabled)
              && (rec.flags != 0 ==>
                    p.enabledOffsets == enabled + [Offset(rec.address, p.address)] && p.offsets == offsets)
  {
    var pv := ProviderKey(rec);
    var provider := if pv in providers then providers[pv] else Provider(pv, map[]);
    var pb := ProbeKey(rec);
    var probe := if pb in provider.probes then provider.probes[pb]
                 else Probe(pb, FunctionName(resolve, rec.address), rec.address, [], [], []);
    if rec.address < probe.address then Failure(AddressBeforeAnchor)
    else
      var delta := Offset(rec.address, probe.address);
      var probe' := probe.(
        arguments := rec.arguments,
        offsets := if rec.flags == 0 then probe.offsets + [delta] else probe.offsets,
        enabledOffsets := if rec.flags == 0 then probe.enabledOffsets else probe.enabledOffsets + [delta]);
      Success(providers[pv := provider.(probes := provider.probes[pb := probe'])])
  }

  /** `process_rec`: decode one record slice and file it. */
  function ProcessRec(providers: Providers, rec: seq<byte>, resolve: Resolver)
    : (r: Result<Providers, DecodeError>)
    ensures r.Success? ==> |rec| > 4 && providers.Keys <= r.value.Keys
    ensures |rec| > 4 && rec[4] > PROBE_REC_VERSION ==> r == Success(providers)
    ensures |rec| < 4 ==> r == Failure(RecordTooShort)
    ensures WellFormed(providers) && r.Success? ==> WellFormed(r.value)
  {
    var decoded :- ParseRecord(rec);
    match decoded
    case Skipped => Success(providers)
    case Parsed(record) =>
      ApplyRecordWellFormed(providers, record, resolve);
      ApplyRecord(providers, record, resolve)
  }

  /** The shape every decoded provider map has: entries are named after their keys and
      every name fits its dtrace.h limit. */
  ghost predicate WellFormed(providers: Providers) {
    forall pv :: pv in providers ==>
      && providers[pv].name == pv
      && |pv| < MAX_PROVIDER_NAME_LEN
      && forall pb :: pb in providers[pv].probes ==> ProbeWellFormed(pb, providers[pv].probes[pb])
  }

  ghost predicate ProbeWellFormed(key: Name, p: Probe) {
    && p.name == key
    && |key| < MAX_PROBE_NAME_LEN
    && |p.func| < MAX_FUNC_NAME_LEN
    && forall i :: 0 <= i < |p.arguments| ==> |p.arguments[i]| < MAX_ARG_TYPE_LEN
  }

  function Pow16(k: nat): nat {
    if k == 0 then 1 else 16 * Pow16(k - 1)
  }

  /** A value below 16^k has at most k hexadecimal digits. */
  lemma {:induction false} HexDigitsLength(n: nat, k: nat)
    requires k >= 1 && n < Pow16(k)
    ensures |HexDigits(n)| <= k
  {
    if n >= 16 {
      assert n / 16 < Pow16(k - 1);
      HexDigitsLength(n / 16, k - 1);
    }
  }

  /** Every function name a new probe can get fits `MAX_FUNC_NAME_LEN`: the placeholder
      for a 64-bit address has at most 3 + 16 bytes. */
  lemma FunctionNameFits(resolve: Resolver, address: u64)
    ensures |FunctionName(resolve, address)| < MAX_FUNC_NAME_LEN
  {
    if resolve(address).None? {
      assert Pow16(16) == 0x1_0000_0000_0000_0000 by {
        assert Pow16(4) == 0x1_0000;
        assert Pow16(8) == 16 * 16 * 16 * 16 * Pow16(4);
        assert Pow16(12) == 16 * 16 * 16 * 16 * Pow16(8);
        assert Pow16(16) == 16 * 16 * 16 * 16 * Pow16(12);
      }
      HexDigitsLength(address, 16);
    }
  }

  /** Filing a record keeps the provider map well formed. */
  lemma ApplyRecordWellFormed(providers: Providers, rec: ProbeRecord, resolve: Resolver)
    requires forall i :: 0 <= i < |rec.arguments| ==> |rec.arguments[i]| < MAX_ARG_TYPE_LEN
    ensures WellFormed(providers) && ApplyRecord(providers, rec, resolve).Success? ==>
              WellFormed(ApplyRecord(providers, rec, resolve).value)
  {
    FunctionNameFits(resolve, rec.address);
  }

  /** Folds `process_rec` over the remaining section bytes, one length-prefixed record
      at a time (the loop of `process_section`). */
  function ProcessRecords(providers: Providers, data: seq<byte>, resolve: Resolver)
    : (r: Result<Providers, DecodeError>)
    ensures 0 < |data| < 4 ==> r == Failure(MissingLengthHeader)
    ensures |data| >= 4 && FromLittleEndian(data[..4]) > |data| ==> r == Failure(LengthBeyondSection)
    ensures |data| >= 4 && FromLittleEndian(data[..4]) < 4 ==> r == Failure(RecordTooShort)
    ensures WellFormed(providers) && r.Success? ==> WellFormed(r.value)
    ensures r.Success? ==> providers.Keys <= r.value.Keys
    decreases |data|
  {
    if |data| == 0 then Success(providers)
    else if |data| < 4 then Failure(MissingLengthHeader)
    else
      var len := FromLittleEndian(data[..4]);
      if len > |data| then Failure(LengthBeyondSection)
      else
        var next :- ProcessRec(providers, data[..len], resolve);
        ProcessRecords(next, data[len..], resolve)
  }

  /** `process_section`: decode a whole probe-record section. */
  function ProcessSection(data: seq<byte>, resolve: Resolver): (r: Result<Option<Section>, DecodeError>)
    ensures r.Success? ==> r.value.Some? && WellFormed(r.value.value.providers)
    ensures |data| == 0 ==> r == Success(Some(Section(map[])))
    ensures 0 < |data| < 4 ==> r == Failure(MissingLengthHeader)
  {
    var providers :- ProcessRecords(map[], data, resolve);
    Success(Some(Section(providers)))
  }
}

=== FILE: record_encoding.dfy ===
/** The producer side of the probe-record format, as the decoder in
    usdt-impl/src/record.rs reads it and as its tests write it: a length prefix covering
    the whole record, the fixed header, then NUL-terminated names. Decoding an encoded
    record gives the record back, with argument descriptions cut to their limit. */
module RecordEncoding {
  import opened Results
  import opened Bytes
  import opened Record

  ghost predicate NulFree(names: seq<Name>) {
    forall i :: 0 <= i < |names| ==> 0 !in names[i]
  }

  /** The argument descriptions as back-to-back C strings. */
  function Cstrs(names: seq<Name>): (bs: seq<byte>)
    requires NulFree(names)
  {
    if |names| == 0 then [] else Cstr(names[0]) + Cstrs(names[1..])
  }

  /** The provider name, probe name and argument descriptions as C strings. */
  function EncodedNames(rec: ProbeRecord): seq<byte>
    requires 0 !in rec.provider && 0 !in rec.probe && NulFree(rec.arguments)
  {
    Cstr(rec.provider) + (Cstr(rec.probe) + Cstrs(rec.arguments))
  }

  /** What a producer can put in one record: NUL-free names, an argument count that fits
      a byte, and a total length that fits the 32-bit prefix. */
  ghost predicate Encodable(rec: ProbeRecord) {
    && 0 !in rec.provider && 0 !in rec.probe && NulFree(rec.arguments)
    && |rec.arguments| < 0x100
    && HEADER_LEN + |EncodedNames(rec)| < 0x1_0000_0000
  }

  /** One record, length prefix included. */
  function EncodeRecord(rec: ProbeRecord): (bs: seq<byte>)
    requires Encodable(rec)
    ensures |bs| == HEADER_LEN + |EncodedNames(rec)|
    ensures FromLittleEndian(bs[..4]) == |bs|
    ensures bs[4] == rec.version
  {
    Pow256Widths();
    var len := HEADER_LEN + |EncodedNames(rec)|;
    var prefix := ToLittleEndian(len, 4);
    var bs := prefix + ([rec.version] + ([|rec.arguments|] + (ToLittleEndian(rec.flags, 2)
                + (ToLittleEndian(rec.address, 8) + EncodedNames(rec)))));
    assert bs[..4] == prefix;
    bs
  }

  /** Each argument description cut to `MAX_ARG_TYPE_LEN`, as the decoder stores them. */
  function LimitAll(names: seq<Name>): (r: seq<Name>)
    ensures |r| == |names|
    ensures forall i :: 0 <= i < |names| ==> r[i] == LimitStringLength(names[i], MAX_ARG_TYPE_LEN)
  {
    if |names| == 0 then [] else [LimitStringLength(names[0], MAX_ARG_TYPE_LEN)] + LimitAll(names[1..])
  }

  /** Descriptions that already fit are stored unchanged. */
  lemma LimitAllShort(names: seq<Name>)
    requires forall i :: 0 <= i < |names| ==> |names[i]| < MAX_ARG_TYPE_LEN
    ensures LimitAll(names) == names
  {
  }

  /** Reading back the argument strings yields each one cut to its limit, and exactly the
      bytes after the last of them. */
  lemma {:induction false} ReadArgumentsOfEncoding(names: seq<Name>, rest: seq<byte>)
    requires NulFree(names)
    ensures ReadArguments(Cstrs(names) + rest, |names|) == Success((LimitAll(names), rest))
  {
    if |names| > 0 {
      var tail := Cstrs(names[1..]) + rest;
      assert Cstrs(names) + rest == Cstr(names[0]) + tail;
      ReadCstrOfEncoding(names[0], tail);
      assert NulFree(names[1..]);
      ReadArgumentsOfEncoding(names[1..], rest);
      assert ReadName(Cstrs(names) + rest) == Success((names[0], tail));
      assert ReadArguments(tail, |names| - 1) == Success((LimitAll(names[1..]), rest));
      assert LimitAll(names) == [LimitStringLength(names[0], MAX_ARG_TYPE_LEN)] + LimitAll(names[1..]);
    } else {
      assert Cstrs(names) + rest == rest;
    }
  }

  /** Decoding the names part of a record yields the names, whatever bytes follow the
      last argument description. */
  lemma ParseNamesOfEncoding(rec: ProbeRecord, rest: seq<byte>)
    requires 0 !in rec.provider && 0 !in rec.probe && NulFree(rec.arguments)
    ensures ReadName(EncodedNames(rec) + rest)
              == Success((rec.provider, Cstr(rec.probe) + Cstrs(rec.arguments) + rest))
    ensures ReadName(Cstr(rec.probe) + Cstrs(rec.arguments) + rest) == Success((rec.probe, Cstrs(rec.arguments) + rest))
    ensures ReadArguments(Cstrs(rec.arguments) + rest, |rec.arguments|) == Success((LimitAll(rec.arguments), rest))
  {
    assert EncodedNames(rec) + rest == Cstr(rec.provider) + (Cstr(rec.probe) + Cstrs(rec.arguments) + rest);
    ReadCstrOfEncoding(rec.provider, Cstr(rec.probe) + Cstrs(rec.arguments) + rest);
    assert Cstr(rec.probe) + Cstrs(rec.arguments) + rest == Cstr(rec.probe) + (Cstrs(rec.arguments) + rest);
    ReadCstrOfEncoding(rec.probe, Cstrs(rec.arguments) + rest);
    ReadArgumentsOfEncoding(rec.arguments, rest);
  }

  /** The bytes after the version byte of an encoded record. */
  function EncodedFields(rec: ProbeRecord): (bs: seq<byte>)
    requires Encodable(rec)
  {
    Pow256Widths();
    [|rec.arguments|] + (ToLittleEndian(rec.flags, 2) + (ToLittleEndian(rec.address, 8) + EncodedNames(rec)))
  }

  /** An encoded record is its length prefix, its version byte, then its fields. */
  lemma EncodeRecordSplits(rec: ProbeRecord)
    requires Encodable(rec)
    ensures |EncodeRecord(rec)| > 4 && EncodeRecord(rec)[5..] == EncodedFields(rec)
  {
  }

  /** Reading back the encoded argument count, flags and address gives them back, and
      exactly the bytes after them. */
  lemma FixedFieldsOfEncoding(n: byte, flags: u16, address: u64, names: seq<byte>)
    ensures Pow256(2) == 0x1_0000 && Pow256(8) == 0x1_0000_0000_0000_0000
    ensures ReadFixedFields([n] + (ToLittleEndian(flags, 2) + (ToLittleEndian(address, 8) + names)))
              == Success((n, flags, address, names))
  {
    Pow256Widths();
    var s := [n] + (ToLittleEndian(flags, 2) + (ToLittleEndian(address, 8) + names));
    assert s[0] == n;
    assert s[1..3] == ToLittleEndian(flags, 2);
    assert s[3..11] == ToLittleEndian(address, 8);
    assert s[11..] == names;
  }

  /** Decoding the fields of an encoded record gives the record back, with its argument
      descriptions cut to `MAX_ARG_TYPE_LEN`. Bytes after the last description are never
      read, so they change nothing. */
  lemma ParseFieldsOfEncoding(rec: ProbeRecord, rest: seq<byte>)
    requires Encodable(rec)
    ensures ParseFields(rec.version, EncodedFields(rec) + rest) == Success(rec.(arguments := LimitAll(rec.arguments)))
  {
    Pow256Widths();
    var names := EncodedNames(rec) + rest;
    assert EncodedFields(rec) + rest
        == [|rec.arguments|] + (ToLittleEndian(rec.flags, 2) + (ToLittleEndian(rec.address, 8) + names));
    FixedFieldsOfEncoding(|rec.arguments|, rec.flags, rec.address, names);
    ParseNamesOfEncoding(rec, rest);
  }

  /** Decoding an encoded record of a supported version gives the record back, with its
      argument descriptions cut to `MAX_ARG_TYPE_LEN`; one of a newer version is skipped. */
  lemma ParseRecordOfEncoding(rec: ProbeRecord)
    requires Encodable(rec)
    ensures rec.version <= PROBE_REC_VERSION ==>
              ParseRecord(EncodeRecord(rec)) == Success(Parsed(rec.(arguments := LimitAll(rec.arguments))))
    ensures rec.version > PROBE_REC_VERSION ==> ParseRecord(EncodeRecord(rec)) == Success(Skipped)
  {
    EncodeRecordSplits(rec);
    if rec.version <= PROBE_REC_VERSION {
      ParseFieldsOfEncoding(rec, []);
      assert EncodedFields(rec) + [] == EncodedFields(rec);
    }
  }

  /** `process_rec` neither reads the length prefix nor checks that the record's bytes are
      used up: a supported record decodes the same whatever its first four bytes hold and
      whatever bytes follow its last argument description. */
  lemma ParseRecordPadded(rec: ProbeRecord, prefix: seq<byte>, pad: seq<byte>)
    requires Encodable(rec) && rec.version <= PROBE_REC_VERSION && |prefix| == 4
    ensures ParseRecord(prefix + EncodeRecord(rec)[4..] + pad)
              == Success(Parsed(rec.(arguments := LimitAll(rec.arguments))))
  {
    var s := prefix + EncodeRecord(rec)[4..] + pad;
    EncodeRecordSplits(rec);
    assert s[4] == rec.version;
    assert s[5..] == EncodedFields(rec) + pad;
    ParseFieldsOfEncoding(rec, pad);
  }

  /** With argument descriptions that already fit, the round trip is exact. */
  lemma ParseRecordRoundTrip(rec: ProbeRecord)
    requires Encodable(rec) && rec.version <= PROBE_REC_VERSION
    requires forall i :: 0 <= i < |rec.arguments| ==> |rec.arguments[i]| < MAX_ARG_TYPE_LEN
    ensures ParseRecord(EncodeRecord(rec)) == Success(Parsed(rec))
  {
    ParseRecordOfEncoding(rec);
    LimitAllShort(rec.arguments);
  }
}

=== FILE: record_properties.dfy ===
/** Properties of the decoder of usdt-impl/src/record.rs that relate several records:
    how `process_section` cuts a section into records, what a skipped record leaves
    behind, what later records may change about a probe, and the scenarios of the
    source's own tests. */
module RecordProperties {
  import opened Results
  import opened Bytes
  import opened Record
  import opened RecordEncoding

  /** A record slice whose length prefix covers exactly the slice. */
  ghost predicate Framed(rec: seq<byte>) {
    |rec| >= 4 && FromLittleEndian(rec[..4]) == |rec|
  }

  function Flatten(recs: seq<seq<byte>>): seq<byte> {
    if |recs| == 0 then [] else recs[0] + Flatten(recs[1..])
  }

  /** `process_rec` applied to each record in turn, stopping at the first error. */
  function ApplyAll(providers: Providers, recs: seq<seq<byte>>, resolve: Resolver)
    : Result<Providers, DecodeError>
    decreases |recs|
  {
    if |recs| == 0 then Success(providers)
    else
      var next :- ProcessRec(providers, recs[0], resolve);
      ApplyAll(next, recs[1..], resolve)
  }

  /** Decoding a section made of framed records consumes exactly one record per length
      prefix and processes the records in order. */
  lemma {:induction false} ProcessRecordsFramed(providers: Providers, recs: seq<seq<byte>>, resolve: Resolver)
    requires forall i :: 0 <= i < |recs| ==> Framed(recs[i])
    ensures ProcessRecords(providers, Flatten(recs), resolve) == ApplyAll(providers, recs, resolve)
    decreases |recs|
  {
    if |recs| > 0 {
      var data := Flatten(recs);
      var rec := recs[0];
      assert data == rec + Flatten(recs[1..]);
      assert data[..4] == rec[..4];
      assert data[..|rec|] == rec;
      assert data[|rec|..] == Flatten(recs[1..]);
      match ProcessRec(providers, rec, resolve)
      case Failure(_) =>
      case Success(next) =>
        ProcessRecordsFramed(next, recs[1..], resolve);
    }
  }

  /** A record of a newer format in front of the rest of a section changes nothing: the
      rest is decoded exactly as if the record were absent. */
  lemma SkippedRecordIsTransparent(providers: Providers, rec: seq<byte>, rest: seq<byte>, resolve: Resolver)
    requires Framed(rec) && |rec| > 4 && rec[4] > PROBE_REC_VERSION
    ensures ProcessRecords(providers, rec + rest, resolve) == ProcessRecords(providers, rest, resolve)
  {
    var data := rec + rest;
    assert data[..4] == rec[..4];
    assert data[..|rec|] == rec;
    assert data[|rec|..] == rest;
  }

  /** How an entry may change while later records are filed into it. */
  ghost predicate Grows(before: Probe, after: Probe) {
    && after.name == before.name
    && after.func == before.func
    && after.address == before.address
    && before.offsets <= after.offsets
    && before.enabledOffsets <= after.enabledOffsets
  }

  /** Every probe of `before` is still in `after`, with the same name, function and
      anchor, and with its offset lists only extended. */
  ghost predicate Extends(before: Providers, after: Providers) {
    forall pv, pb :: Lookup(before, pv, pb).Some? ==>
      Lookup(after, pv, pb).Some? && Grows(Lookup(before, pv, pb).value, Lookup(after, pv, pb).value)
  }

  /** Growth over two steps is growth. */
  lemma ExtendsTransitive(a: Providers, b: Providers, c: Providers)
    requires Extends(a, b) && Extends(b, c)
    ensures Extends(a, c)
  {
    forall pv, pb | Lookup(a, pv, pb).Some?
      ensures Lookup(c, pv, pb).Some? && Grows(Lookup(a, pv, pb).value, Lookup(c, pv, pb).value)
    {
      assert Lookup(b, pv, pb).Some?;
    }
  }

  /** Filing a record never removes a probe or changes its name, function or anchor. */
  lemma ApplyRecordExtends(providers: Providers, rec: ProbeRecord, resolve: Resolver)
    ensures ApplyRecord(providers, rec, resolve).Success? ==>
              Extends(providers, ApplyRecord(providers, rec, resolve).value)
  {
    var r := ApplyRecord(providers, rec, resolve);
    if r.Success? {
      forall pv, pb | Lookup(providers, pv, pb).Some?
        ensures Lookup(r.value, pv, pb).Some? && Grows(Lookup(providers, pv, pb).value, Lookup(r.value, pv, pb).value)
      {
        if pv == ProviderKey(rec) && pb == ProbeKey(rec) {
          assert PriorProbe(providers, rec) == Lookup(providers, pv, pb);
        }
      }
    }
  }

  /** The same for one record slice, skipped or filed. */
  lemma ProcessRecExtends(providers: Providers, rec: seq<byte>, resolve: Resolver)
    ensures ProcessRec(providers, rec, resolve).Success? ==>
              Extends(providers, ProcessRec(providers, rec, resolve).value)
  {
    match ParseRecord(rec)
    case Success(Parsed(record)) => ApplyRecordExtends(providers, record, resolve);
    case Success(Skipped) =>
    case Failure(_) =>
  }

  /** Once a probe exists, no later record of the section changes its name, function or
      anchor, and its offset lists only grow. */
  lemma {:induction false} ProcessRecordsExtends(providers: Providers, data: seq<byte>, resolve: Resolver)
    ensures ProcessRecords(providers, data, resolve).Success? ==>
              Extends(providers, ProcessRecords(providers, data, resolve).value)
    decreases |data|
  {
    if ProcessRecords(providers, data, resolve).Success? && |data| > 0 {
      var len := FromLittleEndian(data[..4]);
      var next := ProcessRec(providers, data[..len], resolve).value;
      ProcessRecExtends(providers, data[..len], resolve);
      ProcessRecordsExtends(next, data[len..], resolve);
      assert ProcessRecords(providers, data, resolve) == ProcessRecords(next, data[len..], resolve);
      ExtendsTransitive(providers, next, ProcessRecords(next, data[len..], resolve).value);
    }
  }

  /** Filing an encoded record of a supported version files the record itself. */
  lemma ProcessRecOfEncoding(providers: Providers, rec: ProbeRecord, resolve: Resolver)
    requires Encodable(rec) && rec.version <= PROBE_REC_VERSION
    ensures ProcessRec(providers, EncodeRecord(rec), resolve)
              == ApplyRecord(providers, rec.(arguments := LimitAll(rec.arguments)), resolve)
  {
    ParseRecordOfEncoding(rec);
  }

  /** The same for a record whose prefix holds anything and which carries extra bytes
      after its last argument description. */
  lemma ProcessRecPadded(providers: Providers, rec: ProbeRecord, prefix: seq<byte>, pad: seq<byte>,
                         resolve: Resolver)
    requires Encodable(rec) && rec.version <= PROBE_REC_VERSION && |prefix| == 4
    ensures ProcessRec(providers, prefix + EncodeRecord(rec)[4..] + pad, resolve)
              == ApplyRecord(providers, rec.(arguments := LimitAll(rec.arguments)), resolve)
  {
    ParseRecordPadded(rec, prefix, pad);
  }

  /** Filing one record into an empty map creates exactly its provider and probe. */
  lemma FirstRecordApplied(f: ProbeRecord, resolve: Resolver)
    ensures var m := ApplyRecord(map[], f, resolve);
            && m.Success?
            && m.value.Keys == {ProviderKey(f)}
            && m.value[ProviderKey(f)].name == ProviderKey(f)
            && m.value[ProviderKey(f)].probes.Keys == {ProbeKey(f)}
            && var p := m.value[ProviderKey(f)].probes[ProbeKey(f)];
               && p.name == ProbeKey(f)
               && p.address == f.address
               && p.func == FunctionName(resolve, f.address)
               && p.arguments == f.arguments
               && (if f.flags == 0 then p.offsets == [0] && p.enabledOffsets == []
                   else p.offsets == [] && p.enabledOffsets == [0])
  {
    assert PriorProbe(map[], f).None?;
  }

  /** A section of one encoded record of a supported version decodes as that record
      filed into an empty map. */
  lemma SectionOfOne(rec: ProbeRecord, resolve: Resolver)
    requires Encodable(rec) && rec.version <= PROBE_REC_VERSION
    ensures ProcessSection(EncodeRecord(rec), resolve)
              == Success(Some(Section(ApplyRecord(map[], rec.(arguments := LimitAll(rec.arguments)), resolve).value)))
  {
    var e := EncodeRecord(rec);
    FirstRecordApplied(rec.(arguments := LimitAll(rec.arguments)), resolve);
    assert Flatten([e]) == e;
    ProcessRecordsFramed(map[], [e], resolve);
    ProcessRecOfEncoding(map[], rec, resolve);
  }

  /** Decoding a section holding one record whose names fit their limits recovers the
      provider name, probe name and address that were encoded. */
  lemma SingleRecordSection(rec: ProbeRecord, resolve: Resolver)
    requires Encodable(rec) && rec.version <= PROBE_REC_VERSION
    requires |rec.provider| < MAX_PROVIDER_NAME_LEN && |rec.probe| < MAX_PROBE_NAME_LEN
    ensures var r := ProcessSection(EncodeRecord(rec), resolve);
            && r.Success? && r.value.Some?
            && r.value.value.providers.Keys == {rec.provider}
            && r.value.value.providers[rec.provider].probes.Keys == {rec.probe}
            && var p := r.value.value.providers[rec.provider].probes[rec.probe];
               && p.name == rec.probe
               && p.address == rec.address
               && p.func == FunctionName(resolve, rec.address)
               && p.arguments == LimitAll(rec.arguments)
  {
    var filed := rec.(arguments := LimitAll(rec.arguments));
    SectionOfOne(rec, resolve);
    FirstRecordApplied(filed, resolve);
    assert ProviderKey(filed) == rec.provider && ProbeKey(filed) == rec.probe;
  }

  /** "provider" and "probe" in ASCII, the names the source's tests use. */
  const PROVIDER: Name := [112, 114, 111, 118, 105, 100, 101, 114]
  const PROBE: Name := [112, 114, 111, 98, 101]

  /** A framed record at the front of a section is processed first, and the rest of the
      section after it. */
  lemma ProcessRecordsFront(providers: Providers, rec: seq<byte>, rest: seq<byte>, resolve: Resolver)
    requires Framed(rec)
    ensures var first := ProcessRec(providers, rec, resolve);
            ProcessRecords(providers, rec + rest, resolve) ==
              if first.Success? then ProcessRecords(first.value, rest, resolve) else first
  {
    var data := rec + rest;
    assert data[..4] == rec[..4];
    assert data[..|rec|] == rec;
    assert data[|rec|..] == rest;
  }

  /** Two framed records in a row are decoded one after the other. */
  lemma ProcessRecordsOfTwo(providers: Providers, a: seq<byte>, b: seq<byte>, resolve: Resolver)
    requires Framed(a) && Framed(b)
    ensures var first := ProcessRec(providers, a, resolve);
            ProcessRecords(providers, a + b, resolve) ==
              if first.Success? then ProcessRec(first.value, b, resolve) else first
  {
    ProcessRecordsFront(providers, a, b, resolve);
    var first := ProcessRec(providers, a, resolve);
    if first.Success? {
      ProcessRecordsFront(first.value, b, [], resolve);
      assert b + [] == b;
    }
  }

  /** A section of two encoded records of a supported version decodes as the second
      record filed into the map the first one made. */
  lemma SectionOfTwo(r1: ProbeRecord, r2: ProbeRecord, resolve: Resolver)
    requires Encodable(r1) && Encodable(r2)
    requires r1.version <= PROBE_REC_VERSION && r2.version <= PROBE_REC_VERSION
    ensures var m1 := ApplyRecord(map[], r1.(arguments := LimitAll(r1.arguments)), resolve);
            && m1.Success?
            && ProcessSection(EncodeRecord(r1) + EncodeRecord(r2), resolve) ==
                 match ApplyRecord(m1.value, r2.(arguments := LimitAll(r2.arguments)), resolve)
                 case Success(m2) => Success(Some(Section(m2)))
                 case Failure(e) => Failure(e)
  {
    var e1, e2 := EncodeRecord(r1), EncodeRecord(r2);
    ProcessRecordsOfTwo(map[], e1, e2, resolve);
    ProcessRecOfEncoding(map[], r1, resolve);
    FirstRecordApplied(r1.(arguments := LimitAll(r1.arguments)), resolve);
    var m1 := ApplyRecord(map[], r1.(arguments := LimitAll(r1.arguments)), resolve).value;
    ProcessRecOfEncoding(m1, r2, resolve);
  }

  /** Two regular records for the same keys filed into an empty map: the first fixes the
      anchor, the offsets are 0 and the distance to the second, and a second address
      below the first is an error. */
  lemma TwoRegularApplied(f1: ProbeRecord, f2: ProbeRecord, resolve: Resolver)
    requires f1.flags == 0 && f2.flags == 0
    requires ProviderKey(f1) == ProviderKey(f2) && ProbeKey(f1) == ProbeKey(f2)
    ensures var m1 := ApplyRecord(map[], f1, resolve);
            && m1.Success?
            && var m2 := ApplyRecord(m1.value, f2, resolve);
               if f1.address <= f2.address then
                 && m2.Success?
                 && ProviderKey(f1) in m2.value
                 && ProbeKey(f1) in m2.value[ProviderKey(f1)].probes
                 && var p := m2.value[ProviderKey(f1)].probes[ProbeKey(f1)];
                    && p.name == ProbeKey(f1)
                    && p.address == f1.address
                    && p.offsets == [0, Offset(f2.address, f1.address)]
                    && p.enabledOffsets == []
               else
                 m2 == Failure(AddressBeforeAnchor)
  {
    var m1 := ApplyRecord(map[], f1, resolve).value;
    assert PriorProbe(m1, f2).Some? && PriorProbe(m1, f2).value.address == f1.address;
    assert PriorProbe(m1, f2).value.offsets == [0] && PriorProbe(m1, f2).value.enabledOffsets == [];
  }

  /** The source's section test: two regular records for the same probe at 0x1234 and
      then 0x12ab give anchor 0x1234 and offsets [0, 0x77], in that order. */
  lemma TwoRecordsShareAnchor(resolve: Resolver)
    ensures var first := EncodeRecord(ProbeRecord(1, 0, 0x1234, PROVIDER, PROBE, []));
            var second := EncodeRecord(ProbeRecord(1, 0, 0x12ab, PROVIDER, PROBE, []));
            var r := ProcessSection(first + second, resolve);
            && r.Success? && r.value.Some?
            && PROVIDER in r.value.value.providers
            && PROBE in r.value.value.providers[PROVIDER].probes
            && var p := r.value.value.providers[PROVIDER].probes[PROBE];
               && p.name == PROBE
               && p.address == 0x1234
               && p.offsets == [0, 0x77]
               && p.enabledOffsets == []
  {
    var r1 := ProbeRecord(1, 0, 0x1234, PROVIDER, PROBE, []);
    var r2 := ProbeRecord(1, 0, 0x12ab, PROVIDER, PROBE, []);
    SectionOfTwo(r1, r2, resolve);
    assert LimitAll([]) == [];
    TwoRegularApplied(r1, r2, resolve);
    assert ProviderKey(r1) == PROVIDER && ProbeKey(r1) == PROBE;
  }

  /** A second record for a probe at an address below its anchor is a decode error, not
      a negative offset. */
  lemma AddressBelowAnchorFails(resolve: Resolver)
    ensures var first := EncodeRecord(ProbeRecord(1, 0, 0x12ab, PROVIDER, PROBE, []));
            var second := EncodeRecord(ProbeRecord(1, 0, 0x1234, PROVIDER, PROBE, []));
            ProcessSection(first + second, resolve) == Failure(AddressBeforeAnchor)
  {
    var r1 := ProbeRecord(1, 0, 0x12ab, PROVIDER, PROBE, []);
    var r2 := ProbeRecord(1, 0, 0x1234, PROVIDER, PROBE, []);
    SectionOfTwo(r1, r2, resolve);
    assert LimitAll([]) == [];
    TwoRegularApplied(r1, r2, resolve);
  }

  /** A record of a newer format followed by a supported one: the first is skipped and
      the second is decoded as if it were alone. */
  lemma NewerVersionDoesNotAbortSection(newer: ProbeRecord, rec: ProbeRecord, resolve: Resolver)
    requires Encodable(newer) && newer.version > PROBE_REC_VERSION
    requires Encodable(rec)
    ensures ProcessSection(EncodeRecord(newer) + EncodeRecord(rec), resolve)
              == ProcessSection(EncodeRecord(rec), resolve)
  {
    SkippedRecordIsTransparent(map[], EncodeRecord(newer), EncodeRecord(rec), resolve);
  }

  /** A name too long for its limit is cut to its first limit-1 bytes, which differ from it. */
  lemma LongNameKey(name: Name, limit: nat)
    requires 1 <= limit <= |name|
    ensures LimitStringLength(name, limit) == name[..limit - 1] != name
  {
  }

  /** A provider or probe name too long for its limit is filed under its first 63
      bytes; the long name itself is not a key. */
  lemma LongNamesAreCut(rec: ProbeRecord, resolve: Resolver)
    requires Encodable(rec) && rec.version <= PROBE_REC_VERSION
    requires |rec.provider| >= MAX_PROVIDER_NAME_LEN && |rec.probe| >= MAX_PROBE_NAME_LEN
    ensures var r := ProcessRec(map[], EncodeRecord(rec), resolve);
            && r.Success?
            && rec.provider !in r.value
            && r.value.Keys == {rec.provider[..MAX_PROVIDER_NAME_LEN - 1]}
            && var provider := r.value[rec.provider[..MAX_PROVIDER_NAME_LEN - 1]];
               && rec.probe !in provider.probes
               && provider.probes.Keys == {rec.probe[..MAX_PROBE_NAME_LEN - 1]}
               && provider.probes[rec.probe[..MAX_PROBE_NAME_LEN - 1]].name == rec.probe[..MAX_PROBE_NAME_LEN - 1]
               && provider.probes[rec.probe[..MAX_PROBE_NAME_LEN - 1]].address == rec.address
  {
    var filed := rec.(arguments := LimitAll(rec.arguments));
    ProcessRecOfEncoding(map[], rec, resolve);
    LongNameKey(rec.provider, MAX_PROVIDER_NAME_LEN);
    LongNameKey(rec.probe, MAX_PROBE_NAME_LEN);
    assert ProviderKey(filed) == rec.provider[..MAX_PROVIDER_NAME_LEN - 1];
    assert ProbeKey(filed) == rec.probe[..MAX_PROBE_NAME_LEN - 1];
    FirstRecordApplied(filed, resolve);
  }

  /** The source's long-name test: names of 130 'p's become names of 63 'p's. */
  lemma OneHundredThirtyPs(rec: ProbeRecord, resolve: Resolver)
    requires Encodable(rec) && rec.version <= PROBE_REC_VERSION
    requires rec.provider == rec.probe && |rec.provider| == 130
    requires forall i :: 0 <= i < |rec.provider| ==> rec.provider[i] == 112   // 'p'
    ensures var r := ProcessRec(map[], EncodeRecord(rec), resolve);
            && r.Success?
            && rec.provider !in r.value
            && exists key :: key in r.value && |key| == 63 && key <= rec.provider
  {
    LongNamesAreCut(rec, resolve);
    var key := rec.provider[..MAX_PROVIDER_NAME_LEN - 1];
    assert key in ProcessRec(map[], EncodeRecord(rec), resolve).value;
  }
}

=== FILE: results.dfy ===
/** Failure-compatible wrappers shared by the decoder, the locator and the binding generator.
    `Option` models Rust's `Option`, `Result` models Rust's `Result`; both work with `:-`. */
module Results {

  datatype Option<+T> = None | Some(value: T) {

    predicate IsFailure() {
      None?
    }

    function PropagateFailure<U>(): Option<U>
      requires None?
    {
      None
    }

    function Extract(): T
      requires Some?
    {
      value
    }
  }

  datatype Result<+T, +E> = Success(value: T) | Failure(error: E) {

    predicate IsFailure() {
      Failure?
    }

    function PropagateFailure<U>(): Result<U, E>
      requires Failure?
    {
      Failure(error)
    }

    function Extract(): T
      requires Success?
    {
      value
    }
  }
}
